=== FILE: README.md ===
# gtop live-metrics core in Dafny

This project models the live-metrics core of gtop, a terminal system
dashboard, and proves properties of the model.

- **Byte formatting** (`Utils`). `humanFileSize` turns a byte count into text such as `"1.00 KiB"`, and `colors` is the six-colour chart palette.
- **Throttle** (`Throttle`). The redraw rate limiter is a class. It fires at once when `delay` has passed since the last invocation; otherwise it keeps one trailing invocation pending. The clock reading is an argument of every event.
- **CPU, network and disk monitors** (`CpuMonitor`, `NetMonitor`, `DiskMonitor`). These are classes whose `updateData` validates the provider's answer and slides the 61-sample windows (drop the oldest sample, append the newest). They also compute the chart titles, labels and donut segment.
- **Process table** (`ProcMonitor`). A state machine over sort key, direction, search term and re-index flag is driven by key presses. From each process list it builds the table view: filter, stable descending sort, optional reversal, and annotated headers.
- **Exporter** (`Exporter`). It builds a snapshot of the monitors, resolves the format, names the file and serialises the snapshot. The CSV serialiser writes `timestamp,metric,value` rows; the Prometheus serialiser writes the text exposition format.
- **Configuration** (`Config`). Dotted-path `get` and `set` work over the nested configuration object. `deepMerge` lays a user file over the defaults.

JavaScript values (`undefined`, `null`, booleans, numbers, strings, arrays and plain objects) are the datatype `Js.Value`. Truthiness, `typeof`, `in`, property access and `String(v)` are written out in `js.dfy`. Numbers are exact reals.

`Number.prototype.toFixed` is defined exactly: round half up at the last digit, then pad with zeros. JavaScript's own number-to-text conversion, used in CSV and Prometheus rows, is a function parameter `show`.

Clocks, timer handles, provider answers and prompt answers are method arguments. Effects on the terminal widgets are the values a method returns: what `setData` receives, whether a redraw happened, and whether the selection moved.

In these places the code behaves in ways a reader may not expect; the model follows the code:

- The exporter's `disk` and `processes` fields are always `null`. The exporter reads `diskData` and `procData`, which no monitor defines (`Exporter.CollectCategories`).
- Only the CPU monitor takes its poll interval from the configuration. Network (1000 ms), disk (10000 ms) and process (3000 ms) intervals are fixed.
- `Cpu.updateData` with an empty `cpus` array still hands the data to the chart and redraws.
- A provider answer arriving after `cleanup` is not ignored: `updateData` has no "still active" gate.
- A process search matches the lower-cased command or the decimal pid, with the term lower-cased when entered.

## Model

| member | source | states |
|---|---|---|
| Utils.HumanFileSize | lib/utils.js:16-31 | `humanFileSize(bytes, isDecimal)`; its meaning is proved in Utils.HumanFileSizeShape and the example lemmas below |
| Utils.HumanFileSizeShape | lib/utils.js:16-31 | the result is exactly "0.00 B" iff the input is not a positive number; otherwise it is the value divided by base^e to two decimals, a space, one of the letters ` KMGT` (never `P`), the infix `i` in binary mode above bytes, and `B` |
| Utils.ExponentIsLargest | lib/utils.js:21-23 | the exponent is the largest k <= 4 with base^k <= bytes (0 below one base unit) |
| Utils.Exponent | lib/utils.js:22-23 | the exponent is clamped to at most 4 |
| Utils.ScaledShape | lib/utils.js:24-30 | a positive count renders as the fixed-2 value (at least four characters) followed by the unit |
| Utils.UnitShape | lib/utils.js:26-29 | the unit letter is one of ` KMGT`; the `i` infix appears iff the mode is binary and e != 0 |
| Utils.BinaryInfix | lib/utils.js:28 | in the formatted text, the character before the final `B` is `i` iff binary mode and e != 0 |
| Utils.RejectedExamples | lib/utils.test.js:5-19 | zero, -100, null, undefined, a string and an object each give "0.00 B" |
| Utils.BytesExample | lib/utils.test.js:22 | 512 gives "512.00  B" (two spaces) |
| Utils.KibibyteExample | lib/utils.test.js:23 | 1024 in binary mode gives "1.00 KiB" |
| Utils.KilobyteExample | lib/utils.test.js:29 | 1000 in decimal mode gives "1.00 KB" |
| Utils.ClampedExample | lib/utils.test.js:37 | 1024^5 gives "1024.00 TiB": the exponent is clamped at tera |
| Utils.PaletteIsSixColours | lib/utils.js:37 | the palette is magenta, cyan, blue, yellow, green, red |
| Text.FixedShape | lib/utils.js:25 | toFixed of a non-negative value has digits, a point, then exactly f digits |
| Text.SplitJoin | lib/config.js:100 | splitting the join of separator-free pieces gives back the pieces |
| Text.JoinSplit | lib/config.js:100 | splitting yields separator-free pieces that join back to the input |
| Js.ShiftPushSlides | lib/monitor/cpu.js:66-67 | shift-then-push keeps a non-empty window's length, puts the new sample last and moves every other sample one place towards the front |
| Throttle.Throttled.constructor | lib/throttle.js:7-11 | a fresh throttle has lastCall 0, nothing pending, no arguments |
| Throttle.Throttled.Call | lib/throttle.js:13-36 | when remaining = delay - (now - lastCall) <= 0 it invokes at once with these arguments, cancels a pending invocation and sets lastCall; otherwise it leaves one invocation pending and only replaces the arguments it will use; spacing of invocations is preserved |
| Throttle.Throttled.Fire | lib/throttle.js:30-34 | the deferred invocation uses the latest arguments, sets lastCall to the firing time and clears the pending flag; if it fires no earlier than due, invocations stay at least `delay` apart |
| Throttle.Throttled.Cancel | lib/throttle.js:38-46 | drops the pending invocation and resets lastCall and the arguments |
| Throttle.FreshCallFires | lib/throttle.js:18-46 | after cancel, a call at a time at or past `delay` invokes at once |
| Throttle.CancelTwice | lib/throttle.js:38-46 | cancel is idempotent: one cancel and two cancels both leave lastCall 0, nothing pending and no arguments |
| CpuMonitor.XAxis | lib/monitor/cpu.js:32-34 | 61 axis values running from 60 down to 0 |
| CpuMonitor.InitialData | lib/monitor/cpu.js:26-37 | one series per reported core |
| CpuMonitor.InitialDataShape | lib/monitor/cpu.js:26-37 | series i is titled "CPU<i+1>", coloured colors[i % 6], has x[j] = 60 - j and 61 zero samples |
| CpuMonitor.LoadTitle | lib/monitor/cpu.js:59-63 | the legend title "CPU<i+1>" + padded load + "%"; its padding is proved by CpuMonitor.PadStartShape and its use by CpuMonitor.UpdatedSeries |
| CpuMonitor.PadStartShape | lib/monitor/cpu.js:59-63 | padding yields max(width, length) characters: spaces, then the text unchanged |
| CpuMonitor.PadLoad | lib/monitor/cpu.js:59-62 | the padding loop produces the text left-padded with spaces to six characters |
| CpuMonitor.Updated | lib/monitor/cpu.js:54-68 | an update keeps the number of series |
| CpuMonitor.UpdatedSeries | lib/monitor/cpu.js:54-68 | a series with a truthy entry carrying a numeric load slides its window by that load and is retitled "CPU<i+1>" + padded load + "%"; the x axis and colour never change; every other series is left as it was |
| CpuMonitor.InitialWindows | lib/monitor/cpu.js:26-37 | every initial series has a 61-sample window over the 60..0 axis |
| CpuMonitor.UpdatedKeepsWindows | lib/monitor/cpu.js:54-68 | an update keeps every series at 61 samples over the 60..0 axis; the class invariant carries this window invariant |
| CpuMonitor.Cpu.constructor | lib/monitor/cpu.js:8-18 | no series yet; poll period is the configured value or 1000 ms; the redraw throttle has a 16 ms delay |
| CpuMonitor.Cpu.UpdateData | lib/monitor/cpu.js:49-72 | a falsy answer, missing `cpus` or a non-array `cpus` changes nothing, the throttle included; otherwise every applicable series is updated in order and handed to the chart; the redraw happens at once iff 16 ms have passed since the last one, and then lastCall is now, nothing is pending and the invocation is recorded; otherwise lastCall is kept and a redraw is pending |
| CpuMonitor.Cpu.Start | lib/monitor/cpu.js:20-46 | a truthy non-array `cpus` throws (the TypeError of `cpus.map`) and changes nothing; a falsy answer or `cpus` changes nothing; otherwise one initial series per core is created, the update is applied, the poll timer starts, and the redraw and throttle state are as for UpdateData |
| CpuMonitor.Cpu.Cleanup | lib/monitor/cpu.js:74-81 | clears the poll timer if one was started and cancels the pending redraw: lastCall 0, nothing pending, no stored arguments |
| NetMonitor.Zeros | lib/monitor/net.js:8 | a window of 61 samples, all zero |
| NetMonitor.Rate | lib/monitor/net.js:34-35 | the rate is the field when it is a positive number, else 0; never negative |
| NetMonitor.TotalFallbackIsRedundant | lib/monitor/net.js:43-53 | the `or 0` fallback on the cumulative totals does not change the label |
| NetMonitor.RxLabel | lib/monitor/net.js:43-47 | the receive label, rate per second and total in binary units; NetMonitor.TotalFallbackIsRedundant shows its `|| 0` changes nothing |
| NetMonitor.TxLabel | lib/monitor/net.js:49-53 | the transfer label, rate per second and total in binary units; NetMonitor.TotalFallbackIsRedundant shows its `|| 0` changes nothing |
| NetMonitor.Net.constructor | lib/monitor/net.js:6-8 | two windows of 61 zeros, no timer yet, a poll period of 1000 ms |
| NetMonitor.Net.UpdateData | lib/monitor/net.js:29-57 | a falsy answer changes nothing; otherwise both windows slide by the clamped rx and tx rates (which become the last samples), stay 61 long and non-negative, and the two labels and windows are handed to the sparkline |
| NetMonitor.Net.Start | lib/monitor/net.js:11-25 | the poll timer starts only when a default interface was found |
| NetMonitor.Net.OnStats | lib/monitor/net.js:17-22 | only a non-empty array answer updates, with its first entry: a truthy first entry slides both windows by its clamped rates and hands the sparkline the receive and transfer labels and the windows |
| NetMonitor.Net.Cleanup | lib/monitor/net.js:59-63 | clears the poll timer if one was started |
| DiskMonitor.Segments | lib/monitor/disk.js:25-48 | a segment is shown iff the answer is a non-empty array whose first entry is truthy with numeric `use` and truthy `used` and `size`; there is exactly one segment, coloured colors[5] |
| DiskMonitor.OnlyFirstFilesystemCounts | lib/monitor/disk.js:30 | filesystems after the first never change what is shown |
| DiskMonitor.Label | lib/monitor/disk.js:35-38 | the donut label; DiskMonitor.SegmentContents states it is "<used> of <size>" in decimal units |
| DiskMonitor.SegmentContents | lib/monitor/disk.js:35-46 | the segment is use/100 with the label "<used> of <size>" in decimal units, colour red |
| DiskMonitor.Disk.constructor | lib/monitor/disk.js:6-22 | the poll timer starts at construction with a period of 10000 ms |
| DiskMonitor.Disk.UpdateData | lib/monitor/disk.js:25-48 | hands the donut exactly the segments above, or nothing |
| DiskMonitor.Disk.Cleanup | lib/monitor/disk.js:50-54 | clears the poll timer if one was started |
| ProcMonitor.OnSortKey | lib/monitor/proc.js:50-59 | the sort-key transition; ProcMonitor.SortKeyTransitions states its effect |
| ProcMonitor.OnSearch | lib/monitor/proc.js:31-39 | the search transition; ProcMonitor.SearchAndEscape states its effect |
| ProcMonitor.OnEscape | lib/monitor/proc.js:41-48 | the escape transition; ProcMonitor.SearchAndEscape states its effect |
| ProcMonitor.SortKeyTransitions | lib/monitor/proc.js:50-59 | pressing the active key flips the direction and pressing it twice restores it; another key becomes active with the direction kept; the search term is untouched; a re-index is requested |
| ProcMonitor.SearchAndEscape | lib/monitor/proc.js:31-48 | only a non-empty answer without error changes the state, storing the lower-cased term and requesting a re-index; escape clears an active term and is idempotent |
| ProcMonitor.Decode | lib/monitor/proc.js:68 | one process per list entry |
| ProcMonitor.Matching | lib/monitor/proc.js:71-77 | the search filter; ProcMonitor.MatchingCounts states which processes it keeps |
| ProcMonitor.Filter | lib/monitor/proc.js:70-77 | no filtering without a term, the search filter with one; ProcMonitor.OrderedCounts states the combined effect |
| ProcMonitor.MatchingCounts | lib/monitor/proc.js:71-77 | with a term, a process is kept iff its lower-cased command or its pid text contains the term, as often as it is listed |
| ProcMonitor.Insert | lib/monitor/proc.js:79-82 | one insertion step of the stable descending sort; the three lemmas below state its properties |
| ProcMonitor.SortDesc | lib/monitor/proc.js:79-82 | the stable descending sort; ProcMonitor.SortDescSpec states its properties |
| ProcMonitor.InsertPermutes | lib/monitor/proc.js:79-82 | inserting adds exactly the inserted process |
| ProcMonitor.InsertOrders | lib/monitor/proc.js:79-82 | inserting into a descending list keeps it descending |
| ProcMonitor.InsertStable | lib/monitor/proc.js:79-82 | inserting keeps the relative order of processes sharing a key |
| ProcMonitor.SortDescSpec | lib/monitor/proc.js:79-82 | the sort by `b[key] - a[key]` is a permutation, is descending by the key and keeps the order of equal keys |
| ProcMonitor.ReverseMultiset | lib/monitor/proc.js:109 | reversing keeps every process as often as it is listed |
| ProcMonitor.Rows | lib/monitor/proc.js:83-90 | one row per shown process |
| ProcMonitor.ViewRows | lib/monitor/proc.js:79-110 | the rows shown are those of the filtered, sorted and possibly reversed processes |
| ProcMonitor.OrderedCounts | lib/monitor/proc.js:71-90 | a process is shown iff the search is off or it matches, as often as it is listed |
| ProcMonitor.OrderedOrder | lib/monitor/proc.js:79-109 | the shown order is descending by the active key, ascending when reversed |
| ProcMonitor.Headers | lib/monitor/proc.js:92-105 | the annotated headers; ProcMonitor.HeadersSpec states them |
| ProcMonitor.HeadersSpec | lib/monitor/proc.js:92-105 | four headers; the active key's column gets ▲ when reversed and ▼ otherwise; the command header names the active term; the rest are plain |
| ProcMonitor.View | lib/monitor/proc.js:79-110 | what the table receives; ProcMonitor.ViewRows, OrderedCounts and OrderedOrder state its rows |
| ProcMonitor.Proc.constructor | lib/monitor/proc.js:12-29 | sorted by CPU, descending, no search, no re-index, empty list, poll timer started with a period of 3000 ms |
| ProcMonitor.Proc.PressSortKey | lib/monitor/proc.js:50-59 | the state moves by the sort-key transition |
| ProcMonitor.Proc.SearchEntered | lib/monitor/proc.js:31-39 | the state moves by the search transition |
| ProcMonitor.Proc.EscapePressed | lib/monitor/proc.js:41-48 | the state moves by the escape transition |
| ProcMonitor.Proc.UpdateData | lib/monitor/proc.js:62-118 | an answer without an array `list` changes nothing; otherwise the view is handed to the table, the stored list is the raw list (sorted in place when no search is active), the selection moves to the first row iff a re-index was pending, and the flag is cleared |
| ProcMonitor.Proc.Cleanup | lib/monitor/proc.js:120-124 | clears the poll timer if one was started |
| Exporter.Apply | lib/exporter.js:59-80 | one monitor's contribution to the snapshot when its read does not throw; Exporter.ApplyReads states it |
| Exporter.ApplyReads | lib/exporter.js:59-80 | a CPU monitor sets cpu to one `{title, load}` per series with the last sample or 0; a memory monitor with truthy memData sets memory to `memData[0].percent || 0` and swap to `swapData[0].percent` or 0; a network monitor sets rx and tx to the last sample or 0; every category the monitor does not fill, and the timestamp, disk and processes, are kept |
| Exporter.ApplyOverrides | lib/exporter.js:59-80 | a category a monitor fills does not depend on what the snapshot held before |
| Exporter.Collect | lib/exporter.js:49-84 | the snapshot of a list of monitors none of whose reads throws; the lemmas below state its contents |
| Exporter.Snapshot | lib/exporter.js:49-84 | `collectMetrics()` in full: None, the TypeError, iff some memory monitor has a truthy `memData` whose `[0]` is undefined or null, or a truthy `swapData` whose `[0]` is; otherwise every read succeeds and the snapshot is Collect's |
| Exporter.SnapshotAborts | lib/exporter.js:66-70 | one throwing memory read abandons the whole snapshot |
| Exporter.CollectCategories | lib/exporter.js:49-84 | the snapshot carries its own timestamp; disk and processes stay null; a category no monitor fills (memory also when memData is falsy) stays null |
| Exporter.CollectLastWins | lib/exporter.js:59-81 | a category holds what the last monitor filling it reads, whatever earlier monitors wrote |
| Exporter.FullSnapshot | lib/gtop.js:89-105 | with the monitors in the application's order (cpu, memory, network, disk, process), cpu, memory and network each hold what their own monitor reads |
| Exporter.ResolveFormat | lib/exporter.js:30 | the format chosen; Exporter.ResolveFormatChoice states it |
| Exporter.ResolveFormatChoice | lib/exporter.js:30 | the argument if truthy, else the configured format if truthy, else "json" |
| Exporter.Sanitize | lib/exporter.js:87 | the sanitised timestamp has the same length |
| Exporter.Filename | lib/exporter.js:87 | the file name; Exporter.FilenameShape states it |
| Exporter.FilenameShape | lib/exporter.js:87 | the name is "metrics-", the timestamp with every `:` and `.` turned into `-` and other characters kept, then the extension |
| Exporter.Csv | lib/exporter.js:94-126 | the CSV text; Exporter.CsvRowCount and Exporter.CsvReadsBack state it |
| Exporter.CsvRowCount | lib/exporter.js:98-122 | one row per core, two for memory, two for the network, one when `disk.percent` is truthy, none for an absent category |
| Exporter.CsvReadsBack | lib/exporter.js:94-126 | the text splits into the header `timestamp,metric,value`, one `timestamp,name,value` line per record with the file's timestamp, and nothing after the last newline |
| Exporter.PromBlocks | lib/exporter.js:133-172 | the metric families of a snapshot; Exporter.PromOrder states which appear, in which order |
| Exporter.Prom | lib/exporter.js:128-175 | the Prometheus text; Exporter.PromLinesShape and the family lemmas state it |
| Exporter.BlockLines | lib/exporter.js:137-141 | a family is `# HELP <name> <help>`, `# TYPE <name> gauge`, then one `<name><labels> <value> <ts>` line per sample, in order |
| Exporter.ScalarBlockLines | lib/exporter.js:143-172 | a one-sample family without labels is exactly its HELP, TYPE and `<name> <value> <ts>` lines |
| Exporter.MemoryFamilyLines | lib/exporter.js:143-153 | present memory gives the `memory_usage_percent` and `swap_usage_percent` families with their usage values |
| Exporter.NetworkFamilyLines | lib/exporter.js:155-165 | present network gives the `network_rx_bytes` and `network_tx_bytes` families with the rx and tx values |
| Exporter.DiskFamilyLines | lib/exporter.js:167-172 | a truthy `disk.percent` gives the `disk_usage_percent` family with that value |
| Exporter.PromOrder | lib/exporter.js:136-171 | families appear in the order cpu, memory, swap, network rx, network tx, disk, each only when present |
| Exporter.PromLinesShape | lib/exporter.js:133-171 | every line is a HELP/TYPE comment or a sample ending in the one shared millisecond timestamp |
| Exporter.CpuBlockLines | lib/exporter.js:137-141 | the CPU family's i-th sample line is `cpu_usage_percent{cpu="i"} <load> <ts>` |
| Exporter.Exported | lib/exporter.js:34-46 | the file an export produces; Exporter.ExportedFormats states it |
| Exporter.ExportedFormats | lib/exporter.js:29-47 | a file is produced iff the format is json, csv or prometheus, named by the timestamp and that format's extension, in the export directory |
| Exporter.Exporter.constructor | lib/exporter.js:6-10 | no monitors, no timer, directory is the configured path or "./metrics" |
| Exporter.Exporter.Init | lib/exporter.js:12-27 | stores the monitors; starts the timer only for a positive configured interval |
| Exporter.Exporter.CollectMetrics | lib/exporter.js:49-84 | the forEach loop over the monitors yields exactly Snapshot: it stops with the TypeError at the first unreadable memory read, and otherwise builds the snapshot |
| Exporter.Exporter.ExportCsv | lib/exporter.js:94-126 | the string built with `+=` is the CSV text |
| Exporter.Exporter.BlockText | lib/exporter.js:137-141 | one family's text is its lines, each ended by a newline |
| Exporter.Exporter.ExportPrometheus | lib/exporter.js:128-175 | the string built with `+=` is the Prometheus text with `Date.now()` as every sample's timestamp |
| Exporter.Exporter.Export | lib/exporter.js:29-47 | throws, with no file, iff the snapshot read throws; otherwise resolves the format, takes the snapshot and builds the file, or none for an unknown format |
| Exporter.Exporter.Render | lib/exporter.js:34-46 | the switch on the resolved format: a JSON, CSV or Prometheus file named by the timestamp and extension, none for any other format |
| Exporter.Exporter.Cleanup | lib/exporter.js:177-181 | clears the export timer only if one was started |
| Config.IsObjectIsObj | lib/config.js:149-151 | `isObject` holds exactly for plain objects |
| Config.Lookup | lib/config.js:99-112 | the value a path of keys leads to; Config.LookupAppend and Config.Config.Get state it |
| Config.LookupAppend | lib/config.js:99-112 | walking a path equals walking its first part, then the rest from there |
| Config.Config.Get | lib/config.js:99-112 | the loop returns the value the dotted path leads to, or undefined once a step meets a falsy or non-object value or a missing key |
| Config.SetPath | lib/config.js:114-127 | the configuration after `set`, or its error; the lemmas below state it |
| Config.SetThenLookup | lib/config.js:114-127 | after a successful set, get on the same path returns the value stored |
| Config.SetLeavesOthers | lib/config.js:114-127 | a set leaves every path that parts from the set path unchanged |
| Config.SetThroughNull | lib/config.js:118-124 | a null intermediate makes set throw a TypeError |
| Config.ErrorPropagates | lib/config.js:118-126 | an error met at a container on the walk down is the error of the whole set |
| Config.Config.Set | lib/config.js:114-127 | the walk down replaces missing or non-object intermediates by `{}`, then assigns the leaf; the new configuration is the path update, or the old one when set throws |
| Config.Spread | lib/config.js:130 | `{...v}`: an object's own fields, the indexed elements of an array or string, nothing otherwise; Config.DeepMergeFields states its use |
| Config.DeepMerge | lib/config.js:129-147 | the merge is always a plain object |
| Config.DeepMergeFields | lib/config.js:129-147 | merging two objects gives the keys of both; target-only keys keep their values; a source value that is not an object, or that the target lacks, is copied; an object both have is merged; otherwise the result is a copy of the target |
| Config.DeepMergeSelf | lib/config.js:129-147 | merging an object with itself changes nothing |
| Config.DeepMergeEmpty | lib/config.js:129-147 | an empty source leaves the target; an empty target yields the source |
| Config.DeepMergeDropsSourceObject | lib/config.js:134-139 | a source object over a non-object target value is lost |
| Config.DeepMergeIntended | lib/config.js:129-147 | the corrected merge is always a plain object |
| Config.DeepMergeAgrees | lib/config.js:129-147 | where every source object meets an object or nothing in the target, the merge as written and the corrected merge agree |
| Config.SourceWins | lib/config.js:129-147 | with the corrected merge, every non-object value at a source path of objects reads back from the merge |
| Config.DefaultSettings | lib/config.js:24-29 | the defaults give export format "json", path "./metrics", interval 60000, CPU poll 1000 ms, and six colours |
| Config.DefaultColours | lib/config.js:16 | the default colours are the palette of lib/utils.js |
| Config.Config.constructor | lib/config.js:41 | the configuration starts as a copy of the defaults |

## Findings

| source | as written | input that shows it | evidently intended | confidence | as-written member | corrected member |
|---|---|---|---|---|---|---|
| lib/config.js:134-139 | when the source value is an object and the target has the key, the target value is merged even if it is not an object, so `{...target[key]}` replaces the source's object | defaults `{"interval": 60000}` and user file `{"interval": {"seconds": 30}}` give `interval: {}`; a string default such as `theme: "default"` becomes an object of its characters | merge only when both values are objects; otherwise the source value replaces the target's | high, not executed | Config.DeepMergeDropsSourceObject | Config.SourceWins |

## Left out

- Floating point: numbers are exact reals. Rounding in `bytes / base^e`, `disk.use / 100` and `toFixed` is exact, and NaN and the infinities are not values of the model.
- Utils.Exponent: is the exact floor logarithm; the source's `Math.floor(Math.log(x) / Math.log(base))` may differ from it by one near exact powers.
- Text.ToFixed: is exact round-half-up for every magnitude; values of 1e21 and above, which JavaScript prints in exponent notation, are not distinguished.
- JavaScript's number-to-text conversion (template literals in CSV and Prometheus rows) is the parameter `show`. `JSON.stringify` is not modelled: the JSON export yields the snapshot value.
- Text.Lower: lower-cases ASCII letters only.
- File system and console effects are out: the export directory check and creation, file writing, config file discovery, `load`, `save` and `generateSample`, and all log output. The exporter produces the file's directory, name and content instead.
- Timers are handles passed in. The repeated polling is the caller's next call to `UpdateData`, as is the immediate re-poll after a key press or search. The throttle's deferred call is the `Fire` event.
- Throttle.Throttled.Fire: requires a pending invocation, because a cleared timeout never fires.
- The memory monitor is not part of this model. The exporter takes its `memData` and `swapData` fields as values.
- Exporter.Apply: requires a read that does not throw; the throwing read of a memory monitor is modelled by Exporter.Snapshot, Exporter.Exporter.CollectMetrics and Exporter.Exporter.Export.
- Exporter.Collect: requires every read to succeed, for the same reason; Exporter.Snapshot is the snapshot with the TypeError path.
- Exporter.Exporter.CollectMetrics: requires every network monitor to hold its two windows; the network monitor's class invariant keeps them, so no reachable state is excluded. Exporter.Exporter.Export inherits this.
- Terminal widgets (`setData`, `render`, `rows.select`) are returned values, not calls.
- The search prompt itself is left out; only its `(err, value)` answer enters the model.
- Exporter.Exporter.Init: only a numeric positive `export.interval` starts the timer; the source's `interval > 0` would also accept a numeric string or `true`.
- ProcMonitor.Proc.UpdateData: requires every list entry to be a process record (integer pid, string command, numeric cpu and mem), as the provider delivers them. The stored list and the filtered list are values, so the in-place sort's aliasing of `allData` shows only as `allData` being the sorted list when no search is active.
- NetMonitor.Net.UpdateData: requires each rate field to be a number or a falsy value, as the provider delivers them; `Math.max` on a numeric string is not modelled.
- Config.SetPath: array containers accept only an in-range index key. Other keys on arrays (`length`, indices past the end, names) yield `Unsupported`, because the value model has no sparse arrays or named array properties.
- Config.Config.Set: rebuilds the nested value instead of mutating it in place. Aliasing between the configuration and the defaults, through the shallow `{...defaults}` copy, is not captured.
- Config.Lookup: `k in value` covers own keys only; inherited names such as `toString` are not present in the model. The same holds for `key in target` in `deepMerge`.

=== FILE: config.dfy ===
/**
 * The configuration: the built-in defaults, dotted-path reading and
 * writing over the nested configuration object, and the recursive merge
 * that lays a user's configuration file over the defaults.
 */
module Config {
  import opened Wrappers
  import opened Js
  import opened Text
  import Utils

  /** `isObject(item)` used as a condition: a plain object (not null, not an array). */
  predicate IsObject(v: Value)
  {
    Truthy(v) && TypeofObject(v) && !v.Arr?
  }

  lemma IsObjectIsObj(v: Value)
    ensures IsObject(v) <==> v.Obj?
  {
  }

  /** The value a dotted path leads to: each step needs a truthy object holding the key. */
  function Lookup(v: Value, keys: seq<string>): Value
    decreases |keys|
  {
    if keys == [] then v
    else if Truthy(v) && TypeofObject(v) && HasKey(v, keys[0]) then Lookup(Member(v, keys[0]), keys[1..])
    else Undefined
  }

  /** Walking a path is walking its first part, then the rest from where that ended. */
  lemma {:induction false} LookupAppend(v: Value, a: seq<string>, b: seq<string>)
    ensures Lookup(v, a + b) == Lookup(Lookup(v, a), b)
    decreases |a|
  {
    if a == [] {
      assert a + b == b;
    } else {
      assert (a + b)[0] == a[0];
      assert (a + b)[1..] == a[1..] + b;
      if Truthy(v) && TypeofObject(v) && HasKey(v, a[0]) {
        LookupAppend(Member(v, a[0]), a[1..], b);
      } else {
        assert Lookup(v, a) == Undefined;
        assert b == [] || !Truthy(Undefined);
      }
    }
  }

  /** Why `set` gives up: a null on the path, or an array key this model does not represent. */
  datatype SetError = TypeError | Unsupported

  /**
   * The container an intermediate key leads to: its value when that is an
   * object, an array or null, otherwise a fresh empty object.
   */
  function Descend(obj: Value, k: string): Value
  {
    if HasKey(obj, k) && TypeofObject(Member(obj, k)) then Member(obj, k) else Obj(map[])
  }

  /** `obj[k] = v` on an object, or on an array at an index in range. */
  function Assign(obj: Value, k: string, v: Value): Result<Value, SetError>
  {
    match obj
    case Obj(f) => Ok(Obj(f[k := v]))
    case Arr(items) =>
      if IndexOf(k).Some? && IndexOf(k).value < |items| then Ok(Arr(items[IndexOf(k).value := v]))
      else Err(Unsupported)
    case _ => Err(TypeError)
  }

  /** `set` on the container `obj`, along `keys`. */
  function SetPath(obj: Value, keys: seq<string>, v: Value): Result<Value, SetError>
    requires keys != []
    decreases |keys|
  {
    if !obj.Obj? && !obj.Arr? then Err(TypeError)
    else if |keys| == 1 then Assign(obj, keys[0], v)
    else
      var inner := SetPath(Descend(obj, keys[0]), keys[1..], v);
      if inner.Err? then inner else Assign(obj, keys[0], inner.value)
  }

  /** After a successful `set`, `get` on the same path yields the value stored. */
  lemma {:induction false} SetThenLookup(obj: Value, keys: seq<string>, v: Value)
    requires keys != [] && SetPath(obj, keys, v).Ok?
    ensures Lookup(SetPath(obj, keys, v).value, keys) == v
    decreases |keys|
  {
    var r := SetPath(obj, keys, v).value;
    assert r.Obj? || r.Arr?;
    assert HasKey(r, keys[0]);
    if |keys| > 1 {
      SetThenLookup(Descend(obj, keys[0]), keys[1..], v);
    }
  }

  /** Once two paths part, the value at the other path is what it was. */
  lemma {:induction false} SetLeavesOthers(obj: Value, keys: seq<string>, v: Value, p: seq<string>, j: nat)
    requires keys != [] && SetPath(obj, keys, v).Ok?
    requires j < |p| && j < |keys| && p[j] != keys[j]
    requires forall i :: 0 <= i < j ==> p[i] == keys[i]
    ensures Lookup(SetPath(obj, keys, v).value, p) == Lookup(obj, p)
    decreases |keys|
  {
    var r := SetPath(obj, keys, v).value;
    var k := keys[0];
    if j == 0 {
      if IndexOf(p[0]).Some? && IndexOf(p[0]) == IndexOf(k) {
        IndexOfInjective(p[0], k);
      }
      assert Member(r, p[0]) == Member(obj, p[0]);
      assert HasKey(r, p[0]) == HasKey(obj, p[0]);
    } else {
      var child := Descend(obj, k);
      SetLeavesOthers(child, keys[1..], v, p[1..], j - 1);
      var child' := SetPath(child, keys[1..], v).value;
      assert Member(r, k) == child';
      assert HasKey(r, k);
      if !(HasKey(obj, k) && TypeofObject(Member(obj, k))) {
        assert Lookup(child, p[1..]) == Undefined;
        assert Lookup(obj, p) == Undefined by {
          if HasKey(obj, k) {
            assert !TypeofObject(Member(obj, k));
          }
        }
      }
    }
  }

  /** Distinct keys name distinct array indices. */
  lemma IndexOfInjective(a: string, b: string)
    requires IndexOf(a).Some? && IndexOf(a) == IndexOf(b)
    ensures a == b
  {
    DecimalOfParseDecimal(a);
    DecimalOfParseDecimal(b);
  }

  lemma DecimalInjective()
    ensures forall i: nat, j: nat :: Decimal(i) == Decimal(j) ==> i == j
  {
    forall i: nat, j: nat | Decimal(i) == Decimal(j)
      ensures i == j
    {
      ParseDecimalOfDecimal(i);
      ParseDecimalOfDecimal(j);
    }
  }

  /** A null container anywhere on the way makes `set` throw a TypeError. */
  lemma SetThroughNull(f: map<string, Value>, k: string, rest: seq<string>, v: Value)
    requires k in f && f[k] == Null && rest != []
    ensures SetPath(Obj(f), [k] + rest, v) == Err(TypeError)
  {
    assert ([k] + rest)[1..] == rest;
  }

  /** `{...v}`: an object's own fields, an array's or a string's indexed elements, or nothing. */
  function Spread(v: Value): map<string, Value>
  {
    match v
    case Obj(f) => f
    case Arr(items) => DecimalInjective(); map i | 0 <= i < |items| :: Decimal(i) := items[i]
    case Str(s) => DecimalInjective(); map i | 0 <= i < |s| :: Decimal(i) := Str([s[i]])
    case _ => map[]
  }

  /** `deepMerge(target, source)` */
  function DeepMerge(target: Value, source: Value): (r: Value)
    ensures r.Obj?
    decreases source
  {
    if IsObject(target) && IsObject(source) then
      var t, s := target.fields, source.fields;
      Obj(map k | k in t.Keys + s.Keys ::
        if k !in s then t[k]
        else if IsObject(s[k]) && k in t then DeepMerge(t[k], s[k])
        else s[k])
    else Obj(Spread(target))
  }

  /**
   * Merging two objects: the keys of both; a key only the target has keeps
   * its value; a source value that is not an object, or that the target
   * lacks, is taken as it is; an object the target also has is merged.
   * Otherwise the result is a copy of the target.
   */
  lemma DeepMergeFields(target: Value, source: Value)
    ensures !(target.Obj? && source.Obj?) ==> DeepMerge(target, source) == Obj(Spread(target))
    ensures target.Obj? && source.Obj? ==>
      var t, s, r := target.fields, source.fields, DeepMerge(target, source).fields;
      && r.Keys == t.Keys + s.Keys
      && (forall k :: k in t && k !in s ==> r[k] == t[k])
      && (forall k :: k in s && (!s[k].Obj? || k !in t) ==> r[k] == s[k])
      && (forall k :: k in s && s[k].Obj? && k in t ==> r[k] == DeepMerge(t[k], s[k]))
  {
  }

  /** Merging an object with itself changes nothing. */
  lemma {:induction false} DeepMergeSelf(x: Value)
    requires x.Obj?
    ensures DeepMerge(x, x) == x
    decreases x
  {
    var f := x.fields;
    var r := DeepMerge(x, x).fields;
    forall k | k in f
      ensures r[k] == f[k]
    {
      if f[k].Obj? {
        DeepMergeSelf(f[k]);
      }
    }
    assert r == f;
  }

  /** An empty source leaves a copy of the target; an empty target yields the source. */
  lemma DeepMergeEmpty(x: Value)
    requires x.Obj?
    ensures DeepMerge(x, Obj(map[])) == x
    ensures DeepMerge(Obj(map[]), x) == x
  {
    assert DeepMerge(x, Obj(map[])).fields == x.fields;
    assert DeepMerge(Obj(map[]), x).fields == x.fields;
  }

  /**
   * As written, a target value that is not an object is spread into a new
   * object when the source has an object at the same key: the source's
   * object is lost. A configured 60000 ms export interval, overridden by an
   * object in the user's file, reads back as an empty object.
   */
  lemma DeepMergeDropsSourceObject()
    ensures var target := Obj(map["interval" := Num(60000.0)]);
      var source := Obj(map["interval" := Obj(map["seconds" := Num(30.0)])]);
      var r := DeepMerge(target, source);
      && Lookup(source, ["interval", "seconds"]) == Num(30.0)
      && r.fields["interval"] == Obj(map[])
      && Lookup(r, ["interval", "seconds"]) == Undefined
  {
    var target := Obj(map["interval" := Num(60000.0)]);
    var source := Obj(map["interval" := Obj(map["seconds" := Num(30.0)])]);
    var r := DeepMerge(target, source);
    assert r.fields["interval"] == DeepMerge(Num(60000.0), Obj(map["seconds" := Num(30.0)]));
    assert ["interval", "seconds"][1..] == ["seconds"];
  }

  /**
   * The merge as evidently intended: an object in the source is merged into
   * the target's value only when that is an object too; any other source
   * value, object or not, replaces the target's.
   */
  function DeepMergeIntended(target: Value, source: Value): (r: Value)
    ensures r.Obj?
    decreases source
  {
    if IsObject(target) && IsObject(source) then
      var t, s := target.fields, source.fields;
      Obj(map k | k in t.Keys + s.Keys ::
        if k !in s then t[k]
        else if IsObject(s[k]) && k in t && IsObject(t[k]) then DeepMergeIntended(t[k], s[k])
        else s[k])
    else Obj(Spread(target))
  }

  /** Where the target's values are objects wherever the source's are, the two merges agree. */
  lemma {:induction false} DeepMergeAgrees(target: Value, source: Value)
    requires target.Obj? && source.Obj?
    requires Compatible(target, source)
    ensures DeepMerge(target, source) == DeepMergeIntended(target, source)
    decreases source
  {
    var t, s := target.fields, source.fields;
    forall k | k in s && s[k].Obj? && k in t
      ensures DeepMerge(t[k], s[k]) == DeepMergeIntended(t[k], s[k])
    {
      DeepMergeAgrees(t[k], s[k]);
    }
    assert DeepMerge(target, source).fields == DeepMergeIntended(target, source).fields;
  }

  /** Every object of the source meets an object, or nothing, in the target. */
  predicate Compatible(target: Value, source: Value)
    decreases source
  {
    target.Obj? && source.Obj? &&
    forall k :: k in source.fields && source.fields[k].Obj? && k in target.fields ==>
      Compatible(target.fields[k], source.fields[k])
  }

  /** A source path of objects of length two or more continues as such a path inside its first member. */
  lemma PathThroughChild(source: Value, p: seq<string>)
    requires source.Obj? && |p| > 1
    requires forall i :: 0 < i < |p| ==> Lookup(source, p[..i]).Obj?
    requires HasKey(Lookup(source, p[..|p| - 1]), p[|p| - 1]) && !Lookup(source, p).Obj?
    ensures p[0] in source.fields
    ensures var child, rest := source.fields[p[0]], p[1..];
      && (forall i :: 0 < i < |rest| ==> Lookup(child, rest[..i]).Obj?)
      && HasKey(Lookup(child, rest[..|rest| - 1]), rest[|rest| - 1])
      && !Lookup(child, rest).Obj?
      && Lookup(source, p) == Lookup(child, rest)
  {
    var k, rest := p[0], p[1..];
    assert p[..1] == [k];
    LookupFirst(source, k);
    PrefixesThroughChild(source, p);
    assert p[..|p| - 1] == [k] + rest[..|rest| - 1];
    LookupCons(source, k, rest[..|rest| - 1]);
    assert p == [k] + rest;
    LookupCons(source, k, rest);
  }

  lemma PrefixesThroughChild(source: Value, p: seq<string>)
    requires source.Obj? && |p| > 1 && p[0] in source.fields
    requires forall i :: 0 < i < |p| ==> Lookup(source, p[..i]).Obj?
    ensures forall i :: 0 < i < |p| - 1 ==> Lookup(source.fields[p[0]], p[1..][..i]).Obj?
  {
    var k, rest := p[0], p[1..];
    forall i | 0 < i < |rest|
      ensures Lookup(source.fields[k], rest[..i]).Obj?
    {
      assert p[..i + 1] == [k] + rest[..i];
      LookupCons(source, k, rest[..i]);
    }
  }

  /** A one-key path of an object that reaches an object names a member of it. */
  lemma LookupFirst(v: Value, k: string)
    requires v.Obj? && Lookup(v, [k]).Obj?
    ensures k in v.fields
  {
  }

  /** Walking a path from an object through one of its members. */
  lemma LookupCons(v: Value, k: string, rest: seq<string>)
    requires v.Obj? && k in v.fields
    ensures Lookup(v, [k] + rest) == Lookup(v.fields[k], rest)
  {
    assert ([k] + rest)[1..] == rest;
  }

  /**
   * With the intended merge the source wins: a source path of objects
   * ending at a non-object value reads back from the merge as that value.
   */
  lemma {:induction false} SourceWins(target: Value, source: Value, p: seq<string>)
    requires target.Obj? && source.Obj? && p != []
    requires forall i :: 0 < i < |p| ==> Lookup(source, p[..i]).Obj?
    requires HasKey(Lookup(source, p[..|p| - 1]), p[|p| - 1]) && !Lookup(source, p).Obj?
    ensures Lookup(DeepMergeIntended(target, source), p) == Lookup(source, p)
    decreases |p|
  {
    var s := source.fields;
    var t := target.fields;
    var k := p[0];
    var r := DeepMergeIntended(target, source);
    if |p| == 1 {
      assert p[..0] == [];
      assert k in s && !s[k].Obj?;
      assert r.fields[k] == s[k];
      assert Lookup(r, p) == Lookup(r.fields[k], []);
    } else {
      PathThroughChild(source, p);
      var child, rest := s[k], p[1..];
      assert p == [k] + rest;
      LookupAppend(r, [k], rest);
      if k in t && t[k].Obj? {
        SourceWins(t[k], child, rest);
        assert r.fields[k] == DeepMergeIntended(t[k], child);
      } else {
        assert r.fields[k] == child;
      }
    }
  }

  /**
   * An error met at the container of step `i`, on the walk down from
   * `containers[0]`, is the error of the whole `set`.
   */
  lemma {:induction false} ErrorPropagates(containers: seq<Value>, keys: seq<string>, v: Value, i: nat)
    requires i < |keys| && i < |containers|
    requires forall j :: 0 <= j < i ==> containers[j + 1] == Descend(containers[j], keys[j])
    requires forall j :: 0 <= j < i ==> containers[j].Obj? || containers[j].Arr?
    requires SetPath(containers[i], keys[i..], v).Err?
    ensures SetPath(containers[0], keys, v) == SetPath(containers[i], keys[i..], v)
  {
    if i > 0 {
      assert keys[i - 1..][1..] == keys[i..];
      ErrorPropagates(containers, keys, v, i - 1);
    } else {
      assert keys[0..] == keys;
    }
  }

  /** `config.defaults`, which the configuration starts as. */
  const Defaults: Value := Obj(map[
    "updateIntervals" := Obj(map[
      "cpu" := Num(1000.0), "memory" := Num(1000.0), "network" := Num(1000.0),
      "disk" := Num(10000.0), "process" := Num(3000.0)]),
    "theme" := Str("default"),
    "colors" := Arr([Str("magenta"), Str("cyan"), Str("blue"), Str("yellow"), Str("green"), Str("red")]),
    "monitors" := Obj(map[
      "cpu" := Bool(true), "memory" := Bool(true), "network" := Bool(true),
      "disk" := Bool(true), "process" := Bool(true)]),
    "export" := Obj(map[
      "enabled" := Bool(false), "format" := Str("json"), "path" := Str("./metrics"),
      "interval" := Num(60000.0)]),
    "processFilter" := Str(""),
    "keybindings" := Obj(map[
      "quit" := Arr([Str("q"), Str("escape"), Str("C-c")]),
      "sortByPid" := Str("p"), "sortByCpu" := Str("c"), "sortByMem" := Str("m"),
      "search" := Str("/"), "export" := Str("e")])])

  /**
   * The default export settings are the exporter's own fallbacks: format
   * "json", directory "./metrics"; the CPU chart polls every 1000 ms.
   */
  lemma DefaultSettings()
    ensures Lookup(Defaults, ["export", "format"]) == Str("json")
    ensures Lookup(Defaults, ["export", "path"]) == Str("./metrics")
    ensures Lookup(Defaults, ["export", "interval"]) == Num(60000.0)
    ensures Lookup(Defaults, ["updateIntervals", "cpu"]) == Num(1000.0)
    ensures Lookup(Defaults, ["colors", "length"]) == Num(6.0)
  {
    LookupPair(Defaults, "export", "format");
    LookupPair(Defaults, "export", "path");
    LookupPair(Defaults, "export", "interval");
    LookupPair(Defaults, "updateIntervals", "cpu");
    LookupLength(Defaults, "colors");
  }

  /** The length of an array member, read through its path. */
  lemma LookupLength(v: Value, a: string)
    requires v.Obj? && a in v.fields && v.fields[a].Arr?
    ensures Lookup(v, [a, "length"]) == Num(|v.fields[a].items| as real)
  {
    assert [a, "length"] == [a] + ["length"];
    LookupCons(v, a, ["length"]);
    assert ["length"][1..] == [];
  }

  /** A two-key path through nested objects reads the inner member. */
  lemma LookupPair(v: Value, a: string, b: string)
    requires v.Obj? && a in v.fields && v.fields[a].Obj? && b in v.fields[a].fields
    ensures Lookup(v, [a, b]) == v.fields[a].fields[b]
  {
    assert [a, b] == [a] + [b];
    LookupCons(v, a, [b]);
    assert [b] == [b] + [];
    LookupCons(v.fields[a], b, []);
  }

  /** The default chart colours are the palette the monitors use. */
  lemma DefaultColours()
    ensures var colours := Lookup(Defaults, ["colors"]);
      colours.Arr? && |colours.items| == |Utils.Colors|
      && forall i :: 0 <= i < |Utils.Colors| ==> colours.items[i] == Str(Utils.Colors[i])
  {
  }

  /** The configuration object. */
  class Config {
    var config: Value

    /** `{...this.defaults}`; loading a file from disk is not part of this model. */
    constructor ()
      ensures config == Defaults
    {
      config := Obj(Spread(Defaults));
    }

    /** `get(key)` */
    method Get(key: string) returns (r: Value)
      ensures r == Lookup(config, Split(key, '.'))
    {
      var keys := Split(key, '.');
      var value := config;
      for i := 0 to |keys|
        invariant Lookup(config, keys) == Lookup(value, keys[i..])
      {
        var k := keys[i];
        assert keys[i..][1..] == keys[i + 1..];
        if Truthy(value) && TypeofObject(value) && HasKey(value, k) {
          value := Member(value, k);
        } else {
          return Undefined;
        }
      }
      return value;
    }

    /**
     * `set(key, value)`: the walk down the path collects the containers
     * (replacing a missing or non-object intermediate by an empty object),
     * then the assignments are made from the innermost container outwards.
     * A TypeError or an unsupported array key leaves the configuration as
     * it was.
     */
    method Set(key: string, value: Value) returns (thrown: Option<SetError>)
      modifies this`config
      ensures var r := SetPath(old(config), Split(key, '.'), value);
        && (r.Ok? ==> config == r.value && thrown == None)
        && (r.Err? ==> config == old(config) && thrown == Some(r.error))
    {
      var keys := Split(key, '.');
      var n := |keys|;
      var containers := [config];
      for i := 0 to n - 1
        invariant |containers| == i + 1 && containers[0] == config
        invariant forall j :: 0 <= j < i ==> containers[j + 1] == Descend(containers[j], keys[j])
        invariant forall j :: 0 <= j < i ==> containers[j].Obj? || containers[j].Arr?
      {
        var obj := containers[i];
        if !obj.Obj? && !obj.Arr? {
          ErrorPropagates(containers, keys, value, i);
          return Some(TypeError);
        }
        containers := containers + [Descend(obj, keys[i])];
      }
      var last := containers[n - 1];
      if !last.Obj? && !last.Arr? {
        ErrorPropagates(containers, keys, value, n - 1);
        return Some(TypeError);
      }
      var acc := Assign(last, keys[n - 1], value);
      var i := n - 1;
      while i > 0 && acc.Ok?
        invariant 0 <= i < n
        invariant acc == SetPath(containers[i], keys[i..], value)
      {
        i := i - 1;
        assert keys[i..][1..] == keys[i + 1..];
        acc := Assign(containers[i], keys[i], acc.value);
      }
      if acc.Err? {
        ErrorPropagates(containers, keys, value, i);
        return Some(acc.error);
      }
      assert keys[0..] == keys;
      config := acc.value;
      return None;
    }
  }
}

=== FILE: cpu.dfy ===
/**
 * The CPU monitor: one 61-sample load series per core, shifted and appended
 * on every provider answer, with the current load in each series title, and
 * redraws going through a 16 ms throttle.
 */
module CpuMonitor {
  import opened Wrappers
  import opened Js
  import opened Text
  import opened Utils
  import Throttle

  /** Samples kept per series: one a second over a minute, both ends included. */
  const Width: nat := 61

  /** A chart series: legend title, line colour, the fixed x axis and the samples. */
  datatype Series = Series(title: string, color: string, x: seq<int>, y: seq<real>)

  /** The x axis 60, 59, ..., 0 */
  function XAxis(): (xs: seq<int>)
    ensures |xs| == Width && xs[0] == 60 && xs[Width - 1] == 0
  {
    seq(Width, i => 60 - i)
  }

  /** The series of core i before the first sample: its name, its palette colour, zeros. */
  function InitialSeries(i: nat): Series
  {
    Series("CPU" + Decimal(i + 1), Colors[i % |Colors|], XAxis(), seq(Width, _ => 0.0))
  }

  function InitialData(n: nat): (data: seq<Series>)
    ensures |data| == n
  {
    seq(n, i requires 0 <= i < n => InitialSeries(i))
  }

  /** Each initial series holds 61 zero samples over the axis 60..0, named and coloured by its core. */
  lemma InitialDataShape(n: nat)
    ensures forall i :: 0 <= i < n ==>
      var s := InitialData(n)[i];
      && s.title == "CPU" + Decimal(i + 1) && s.color == Colors[i % 6]
      && |s.x| == Width && (forall j :: 0 <= j < Width ==> s.x[j] + j == 60)
      && |s.y| == Width && (forall j :: 0 <= j < Width ==> s.y[j] == 0.0)
  {
  }

  /** `s` left-padded with spaces to at least `width` characters. */
  function PadStart(s: string, width: nat): string
  {
    if |s| < width then Repeat(' ', width - |s|) + s else s
  }

  lemma PadStartShape(s: string, width: nat)
    ensures var r := PadStart(s, width);
      |r| == (if |s| < width then width else |s|) &&
      r[|r| - |s|..] == s &&
      forall i :: 0 <= i < |r| - |s| ==> r[i] == ' '
  {
  }

  /** The legend title of core i at a given load: "CPU<i+1>", the load to one decimal padded to six, "%". */
  function LoadTitle(i: nat, load: real): string
  {
    "CPU" + Decimal(i + 1) + PadStart(ToFixed(load, 1), 6) + "%"
  }

  /** The provider answer is used at all: `data.cpus` is an array. */
  predicate Accepted(data: Value)
  {
    Truthy(data) && Truthy(Member(data, "cpus")) && Member(data, "cpus").Arr?
  }

  /** A core entry updates series i: a truthy entry whose `load` is a number, with a series at i. */
  predicate Applies(entry: Value, i: nat, series: nat)
  {
    Truthy(entry) && Member(entry, "load").Num? && i < series
  }

  /** Series i after a sample of `load`: oldest sample dropped, `load` appended, title refreshed. */
  function Step(s: Series, i: nat, load: real): Series
  {
    s.(title := LoadTitle(i, load), y := ShiftPush(s.y, load))
  }

  /** The series after one provider answer listing `cpus`. */
  function Updated(data: seq<Series>, cpus: seq<Value>): (r: seq<Series>)
    ensures |r| == |data|
  {
    seq(|data|, i requires 0 <= i < |data| =>
      if i < |cpus| && Applies(cpus[i], i, |data|) then Step(data[i], i, Member(cpus[i], "load").n)
      else data[i])
  }

  /**
   * An update keeps the number of series and every x axis, keeps windows of
   * 61 samples at 61, appends the load of each applicable entry after dropping
   * the oldest sample, and leaves every other series as it was.
   */
  lemma {:induction false} UpdatedSeries(data: seq<Series>, cpus: seq<Value>, i: nat)
    requires i < |data|
    ensures var s, s' := data[i], Updated(data, cpus)[i];
      && s'.x == s.x && s'.color == s.color
      && (|s.y| >= 1 ==> |s'.y| == |s.y|)
      && (i < |cpus| && Applies(cpus[i], i, |data|) ==>
            var load := Member(cpus[i], "load").n;
            s'.y == ShiftPush(s.y, load) && s'.y[|s'.y| - 1] == load && s'.title == LoadTitle(i, load))
      && (!(i < |cpus| && Applies(cpus[i], i, |data|)) ==> s' == s)
  {
    var s' := Updated(data, cpus)[i];
    if i < |cpus| && Applies(cpus[i], i, |data|) {
      assert s'.y == ShiftPush(data[i].y, Member(cpus[i], "load").n);
    }
  }

  /** Updating entries one at a time from the left builds the whole update. */
  lemma UpdatedExtend(data: seq<Series>, cpus: seq<Value>, i: nat)
    requires i < |cpus|
    ensures Updated(data, cpus[..i + 1]) ==
      if Applies(cpus[i], i, |data|) then Updated(data, cpus[..i])[i := Step(data[i], i, Member(cpus[i], "load").n)]
      else Updated(data, cpus[..i])
  {
  }

  /** Every series holds a 61-sample window over the axis 60..0. */
  ghost predicate Windows(data: seq<Series>)
  {
    forall i :: 0 <= i < |data| ==> |data[i].y| == Width && data[i].x == XAxis()
  }

  lemma InitialWindows(n: nat)
    ensures Windows(InitialData(n))
  {
  }

  /** An update keeps every window at 61 samples over the same axis. */
  lemma UpdatedKeepsWindows(data: seq<Series>, cpus: seq<Value>)
    requires Windows(data)
    ensures Windows(Updated(data, cpus))
  {
    forall i | 0 <= i < |data|
      ensures |Updated(data, cpus)[i].y| == Width && Updated(data, cpus)[i].x == XAxis()
    {
      UpdatedSeries(data, cpus, i);
    }
  }

  /** Left-pads the load text with spaces until it is six characters long. */
  method PadLoad(fixed: string) returns (loadString: string)
    ensures loadString == PadStart(fixed, 6)
  {
    loadString := fixed;
    while |loadString| < 6
      invariant |fixed| <= |loadString| <= (if |fixed| < 6 then 6 else |fixed|)
      invariant loadString == Repeat(' ', |loadString| - |fixed|) + fixed
    {
      loadString := " " + loadString;
    }
  }

  /** The CPU chart: the series handed to the line widget, the poll timer and the redraw throttle. */
  class Cpu {
    var cpuData: seq<Series>
    var interval: Option<nat>
    /** the poll period: the configured `updateIntervals.cpu`, or 1000 ms when unset */
    const updateInterval: Value
    const throttledRender: Throttle.Throttled<()>

    ghost predicate Valid()
      reads this, throttledRender
    {
      throttledRender.Valid() && throttledRender.delay == 16 && Windows(cpuData)
    }

    constructor (configured: Value)
      ensures Valid() && fresh(throttledRender)
      ensures cpuData == [] && interval == None && updateInterval == Or(configured, Num(1000.0))
      ensures throttledRender.lastCall == 0 && !throttledRender.pending
    {
      cpuData := [];
      interval := None;
      updateInterval := Or(configured, Num(1000.0));
      throttledRender := new Throttle.Throttled(16);
    }

    /**
     * A provider answer at time `now`: returns what was handed to the chart
     * (None: nothing) and whether the throttle redrew at once.
     */
    method UpdateData(data: Value, now: int) returns (shown: Option<seq<Series>>, rendered: bool)
      requires Valid()
      modifies this`cpuData, throttledRender
      ensures Valid()
      ensures !Accepted(data) ==>
        cpuData == old(cpuData) && shown == None && !rendered && unchanged(throttledRender)
      ensures Accepted(data) ==>
        && cpuData == Updated(old(cpuData), Member(data, "cpus").items)
        && shown == Some(cpuData)
        && rendered == (16 - (now - old(throttledRender.lastCall)) <= 0)
        && throttledRender.lastArgs == Some(())
        && (rendered ==>
              throttledRender.lastCall == now && !throttledRender.pending
              && throttledRender.history == old(throttledRender.history) + [now])
        && (!rendered ==>
              throttledRender.lastCall == old(throttledRender.lastCall) && throttledRender.pending
              && throttledRender.history == old(throttledRender.history))
    {
      if !Accepted(data) {
        return None, false;
      }
      var cpus := Member(data, "cpus").items;
      ghost var data0 := cpuData;
      for i := 0 to |cpus|
        modifies this`cpuData
        invariant |cpuData| == |data0|
        invariant cpuData == Updated(data0, cpus[..i])
      {
        UpdatedExtend(data0, cpus, i);
        var cpu := cpus[i];
        if !Truthy(cpu) || !Member(cpu, "load").Num? || i >= |cpuData| {
          continue;
        }
        var load := Member(cpu, "load").n;
        var loadString := PadLoad(ToFixed(load, 1));
        var s := cpuData[i];
        assert s == data0[i];
        cpuData := cpuData[i := s.(title := "CPU" + Decimal(i + 1) + loadString + "%", y := ShiftPush(s.y, load))];
      }
      assert cpus[..|cpus|] == cpus;
      UpdatedKeepsWindows(data0, cpus);
      shown := Some(cpuData);
      var invoked := throttledRender.Call(now, ());
      rendered := invoked.Some?;
    }

    /**
     * The first answer to the load request: unless it lacks `cpus`, one
     * initial series per core, then the update, then the poll timer. A
     * truthy `cpus` that is not an array has no `map`: the callback throws
     * a TypeError (`thrown`) before anything changes.
     */
    method Start(data: Value, now: int, timer: nat) returns (shown: Option<seq<Series>>, rendered: bool, thrown: bool)
      requires Valid()
      modifies this`cpuData, this`interval, throttledRender
      ensures Valid()
      ensures thrown <==> Truthy(data) && Truthy(Member(data, "cpus")) && !Member(data, "cpus").Arr?
      ensures !Accepted(data) ==>
        cpuData == old(cpuData) && interval == old(interval) && shown == None && !rendered
        && unchanged(throttledRender)
      ensures Accepted(data) ==>
        var cpus := Member(data, "cpus").items;
        && cpuData == Updated(InitialData(|cpus|), cpus)
        && interval == Some(timer) && shown == Some(cpuData)
        && rendered == (16 - (now - old(throttledRender.lastCall)) <= 0)
        && (rendered ==>
              throttledRender.lastCall == now && !throttledRender.pending
              && throttledRender.history == old(throttledRender.history) + [now])
        && (!rendered ==>
              throttledRender.lastCall == old(throttledRender.lastCall) && throttledRender.pending
              && throttledRender.history == old(throttledRender.history))
    {
      if !Truthy(data) || !Truthy(Member(data, "cpus")) {
        return None, false, false;
      }
      if !Member(data, "cpus").Arr? {
        return None, false, true;
      }
      cpuData := InitialData(|Member(data, "cpus").items|);
      InitialWindows(|Member(data, "cpus").items|);
      shown, rendered := UpdateData(data, now);
      interval := Some(timer);
      thrown := false;
    }

    /** Stops the poll timer, if one was started, and drops a pending redraw. */
    method Cleanup() returns (cleared: Option<nat>)
      requires Valid()
      modifies throttledRender
      ensures Valid()
      ensures cleared == interval
      ensures throttledRender.lastCall == 0 && !throttledRender.pending && throttledRender.lastArgs == None
    {
      cleared := None;
      if interval.Some? {
        cleared := interval;
      }
      throttledRender.Cancel();
    }
  }
}

=== FILE: disk.dfy ===
/**
 * The disk monitor: the usage of the first filesystem the provider lists, as
 * one donut segment labelled "<used> of <size>" in decimal units.
 */
module DiskMonitor {
  import opened Wrappers
  import opened Js
  import opened Utils

  /** A donut segment: fraction filled, its label text and colour. */
  datatype Segment = Segment(percent: real, text: string, color: string)

  /** The first filesystem is shown: it is truthy, its `use` is a number, `used` and `size` are truthy. */
  predicate Usable(disk: Value)
  {
    Truthy(disk) && Member(disk, "use").Num? && Truthy(Member(disk, "used")) && Truthy(Member(disk, "size"))
  }

  function Label(disk: Value): string
  {
    HumanFileSize(Member(disk, "used"), true) + " of " + HumanFileSize(Member(disk, "size"), true)
  }

  /** What the donut receives for a provider answer; None: the answer is ignored. */
  function Segments(data: Value): (r: Option<seq<Segment>>)
    ensures r.Some? <==> data.Arr? && |data.items| > 0 && Usable(data.items[0])
    ensures r.Some? ==> |r.value| == 1 && r.value[0].color == Colors[5]
  {
    if !Truthy(data) || !data.Arr? || |data.items| == 0 then None
    else
      var disk := data.items[0];
      if !Usable(disk) then None
      else Some([Segment(Member(disk, "use").n / 100.0, Label(disk), Colors[5])])
  }

  /** Only the first filesystem is consulted: the others never change what is shown. */
  lemma OnlyFirstFilesystemCounts(first: Value, rest: seq<Value>, rest': seq<Value>)
    ensures Segments(Arr([first] + rest)) == Segments(Arr([first] + rest'))
  {
  }

  /** The segment carries use/100 and the "<used> of <size>" label. */
  lemma SegmentContents(data: Value)
    requires Segments(data).Some?
    ensures var disk := data.items[0];
      Segments(data).value[0] == Segment(Member(disk, "use").n / 100.0,
        HumanFileSize(Member(disk, "used"), true) + " of " + HumanFileSize(Member(disk, "size"), true), "red")
  {
  }

  class Disk {
    var interval: Option<nat>
    /** the poll period in milliseconds */
    const period: nat

    /** The poll timer (every 10000 ms) starts with the monitor. */
    constructor (timer: nat)
      ensures interval == Some(timer) && period == 10000
    {
      interval := Some(timer);
      period := 10000;
    }

    /** A provider answer: what is handed to the donut (and redrawn), if anything. */
    method UpdateData(data: Value) returns (shown: Option<seq<Segment>>)
      ensures shown == Segments(data)
    {
      shown := Segments(data);
    }

    /** Stops the poll timer if it was started. */
    method Cleanup() returns (cleared: Option<nat>)
      ensures cleared == interval
    {
      cleared := None;
      if interval.Some? {
        cleared := interval;
      }
    }
  }
}

=== FILE: exporter.dfy ===
/**
 * The metrics exporter: the snapshot of the running monitors, the choice of
 * format, the file name, and the two line-oriented serialisers (comma
 * separated rows and the Prometheus text exposition format). Files are not
 * written here: an export yields the file's directory, name and content.
 */
module Exporter {
  import opened Wrappers
  import opened Js
  import opened Text
  import CpuMonitor
  import NetMonitor
  import DiskMonitor
  import ProcMonitor

  /**
   * The monitors handed to the exporter, by constructor. The memory monitor
   * is not part of this model: its `memData` and `swapData` fields are
   * given as values.
   */
  datatype Monitor =
    | CpuMon(cpu: CpuMonitor.Cpu)
    | MemMon(memData: Value, swapData: Value)
    | NetMon(net: NetMonitor.Net)
    | DiskMon(disk: DiskMonitor.Disk)
    | ProcMon(proc: ProcMonitor.Proc)

  datatype CpuLoad = CpuLoad(title: string, load: real)
  datatype Memory = Memory(usage: Value, swap: Value)
  datatype Network = Network(rx: real, tx: real)

  /** The snapshot; `None` is a category left `null`. */
  datatype Metrics = Metrics(
    timestamp: string,
    cpu: Option<seq<CpuLoad>>,
    memory: Option<Memory>,
    network: Option<Network>,
    disk: Value,
    processes: Value)

  function Objects(m: Monitor): set<object>
  {
    match m
    case CpuMon(c) => {c}
    case MemMon(_, _) => {}
    case NetMon(n) => {n}
    case DiskMon(d) => {d}
    case ProcMon(p) => {p}
  }

  function Footprint(ms: seq<Monitor>): set<object>
  {
    set i, o | 0 <= i < |ms| && o in Objects(ms[i]) :: o
  }

  /** A network monitor holds its two windows, as its class invariant keeps them. */
  predicate Shaped(m: Monitor)
    reads Objects(m)
  {
    m.NetMon? ==> |m.net.netData| >= 2
  }

  /**
   * Reading the monitor throws a TypeError: a truthy `memData` whose first
   * entry is `undefined` or `null`, or a truthy `swapData` whose first entry
   * is, has no `percent` to read.
   */
  predicate Throws(m: Monitor)
  {
    && m.MemMon? && Truthy(m.memData)
    && (!Readable(Member(m.memData, "0")) || (Truthy(m.swapData) && !Readable(Member(m.swapData, "0"))))
  }

  /** What reading the monitor needs so as not to throw. */
  predicate Ready(m: Monitor)
    reads Objects(m)
  {
    Shaped(m) && !Throws(m)
  }

  predicate AllShaped(ms: seq<Monitor>)
    reads Footprint(ms)
  {
    forall i :: 0 <= i < |ms| ==> Shaped(ms[i])
  }

  predicate AllReady(ms: seq<Monitor>)
    reads Footprint(ms)
  {
    forall i :: 0 <= i < |ms| ==> Ready(ms[i])
  }

  predicate AnyThrows(ms: seq<Monitor>)
  {
    exists i :: 0 <= i < |ms| && Throws(ms[i])
  }

  /** `w[w.length - 1] || 0` */
  function Last(w: seq<real>): (r: real)
    ensures w == [] ==> r == 0.0
    ensures w != [] ==> r == w[|w| - 1]
  {
    if w == [] then 0.0 else w[|w| - 1]
  }

  function Loads(data: seq<CpuMonitor.Series>): (r: seq<CpuLoad>)
    ensures |r| == |data|
    ensures forall i :: 0 <= i < |data| ==> r[i] == CpuLoad(data[i].title, Last(data[i].y))
  {
    seq(|data|, i requires 0 <= i < |data| => CpuLoad(data[i].title, Last(data[i].y)))
  }

  const Empty: Metrics := Metrics("", None, None, None, Null, Null)

  /**
   * One monitor read into the snapshot. Disk and process monitors keep no
   * `diskData` or `procData` field, so they leave the snapshot as it is.
   */
  function Apply(metrics: Metrics, m: Monitor): Metrics
    requires Ready(m)
    reads Objects(m)
  {
    match m
    case CpuMon(c) => metrics.(cpu := Some(Loads(c.cpuData)))
    case MemMon(memData, swapData) =>
      if !Truthy(memData) then metrics
      else metrics.(memory := Some(Memory(
        Or(Member(Member(memData, "0"), "percent"), Num(0.0)),
        if Truthy(swapData) then Member(Member(swapData, "0"), "percent") else Num(0.0))))
    case NetMon(n) => metrics.(network := Some(Network(Last(n.netData[0]), Last(n.netData[1]))))
    case DiskMon(_) => metrics
    case ProcMon(_) => metrics
  }

  /** The snapshot of the monitors, read in order, stamped with `timestamp`. */
  function Collect(timestamp: string, ms: seq<Monitor>): Metrics
    requires AllReady(ms)
    reads Footprint(ms)
    decreases |ms|
  {
    if ms == [] then Empty.(timestamp := timestamp)
    else Apply(Collect(timestamp, ms[..|ms| - 1]), ms[|ms| - 1])
  }

  /**
   * `collectMetrics()`: the monitors read in order, or None when a read
   * throws, which abandons the whole snapshot.
   */
  function Snapshot(timestamp: string, ms: seq<Monitor>): (r: Option<Metrics>)
    requires AllShaped(ms)
    reads Footprint(ms)
    ensures r.None? <==> AnyThrows(ms)
    ensures r.Some? ==> AllReady(ms) && r.value == Collect(timestamp, ms)
    decreases |ms|
  {
    if ms == [] then Some(Empty.(timestamp := timestamp))
    else
      var prefix := ms[..|ms| - 1];
      assert forall i :: 0 <= i < |prefix| ==> prefix[i] == ms[i];
      match Snapshot(timestamp, prefix)
      case None => None
      case Some(x) => if Throws(ms[|ms| - 1]) then None else Some(Apply(x, ms[|ms| - 1]))
  }

  /** A read that throws abandons the snapshot, whatever the other monitors hold. */
  lemma SnapshotAborts(timestamp: string, ms: seq<Monitor>, i: nat)
    requires AllShaped(ms) && i < |ms| && Throws(ms[i])
    ensures Snapshot(timestamp, ms) == None
  {
  }

  /** The snapshot categories a monitor can fill. */
  datatype Category = CpuCategory | MemoryCategory | NetworkCategory

  /** The monitor fills the category when read: its kind's branch is taken. */
  predicate Fills(m: Monitor, c: Category)
  {
    match c
    case CpuCategory => m.CpuMon?
    case MemoryCategory => m.MemMon? && Truthy(m.memData)
    case NetworkCategory => m.NetMon?
  }

  /** The snapshot with every field but category `c` blanked. */
  function Only(m: Metrics, c: Category): Metrics
  {
    match c
    case CpuCategory => Empty.(cpu := m.cpu)
    case MemoryCategory => Empty.(memory := m.memory)
    case NetworkCategory => Empty.(network := m.network)
  }

  /**
   * What one monitor puts in the snapshot: the CPU loads are each series'
   * title and last sample (0 for an empty series); memory usage is
   * `memData[0].percent || 0` and swap `swapData[0].percent`, or 0 without
   * swap data; rx and tx are the last samples of the two windows, or 0.
   * Every other category, and the stamp, is left as it was.
   */
  lemma ApplyReads(x: Metrics, m: Monitor)
    requires Ready(m)
    ensures var r := Apply(x, m);
      && r.timestamp == x.timestamp && r.disk == x.disk && r.processes == x.processes
      && (forall c :: !Fills(m, c) ==> Only(r, c) == Only(x, c))
      && (m.CpuMon? ==>
            var data := m.cpu.cpuData;
            r.cpu.Some? && |r.cpu.value| == |data|
            && forall j :: 0 <= j < |data| ==>
                 r.cpu.value[j].title == data[j].title
                 && r.cpu.value[j].load == (if data[j].y == [] then 0.0 else data[j].y[|data[j].y| - 1]))
      && (Fills(m, MemoryCategory) ==>
            r.memory == Some(Memory(
              Or(Member(Member(m.memData, "0"), "percent"), Num(0.0)),
              if Truthy(m.swapData) then Member(Member(m.swapData, "0"), "percent") else Num(0.0))))
      && (m.NetMon? ==>
            var w := m.net.netData;
            r.network.Some?
            && r.network.value.rx == (if w[0] == [] then 0.0 else w[0][|w[0]| - 1])
            && r.network.value.tx == (if w[1] == [] then 0.0 else w[1][|w[1]| - 1]))
  {
  }

  /** A category's value depends only on the monitor that fills it, not on what was there. */
  lemma ApplyOverrides(x: Metrics, y: Metrics, m: Monitor, c: Category)
    requires Ready(m) && Fills(m, c)
    ensures Only(Apply(x, m), c) == Only(Apply(y, m), c)
  {
  }

  /**
   * Every category starts out null and stays null unless some monitor fills
   * it; the disk and process categories are never filled, and the snapshot
   * carries the given stamp.
   */
  lemma {:induction false} CollectCategories(timestamp: string, ms: seq<Monitor>, c: Category)
    requires AllReady(ms)
    ensures var m := Collect(timestamp, ms);
      && m.timestamp == timestamp
      && m.disk == Null && m.processes == Null
      && ((forall i :: 0 <= i < |ms| ==> !Fills(ms[i], c)) ==> Only(m, c) == Only(Empty, c))
    decreases |ms|
  {
    if ms != [] {
      var init := ms[..|ms| - 1];
      assert forall i :: 0 <= i < |init| ==> init[i] == ms[i];
      CollectCategories(timestamp, init, c);
      ApplyReads(Collect(timestamp, init), ms[|ms| - 1]);
    }
  }

  /**
   * The last monitor that fills a category decides it: the category holds
   * what that monitor alone reads, whatever the monitors before it read.
   */
  lemma {:induction false} CollectLastWins(timestamp: string, ms: seq<Monitor>, c: Category, i: nat)
    requires AllReady(ms) && i < |ms| && Fills(ms[i], c)
    requires forall j :: i < j < |ms| ==> !Fills(ms[j], c)
    ensures Only(Collect(timestamp, ms), c) == Only(Apply(Empty, ms[i]), c)
    decreases |ms|
  {
    var init, last := ms[..|ms| - 1], ms[|ms| - 1];
    assert forall j :: 0 <= j < |init| ==> init[j] == ms[j];
    if i == |ms| - 1 {
      ApplyOverrides(Collect(timestamp, init), Empty, last, c);
    } else {
      CollectLastWins(timestamp, init, c, i);
      ApplyReads(Collect(timestamp, init), last);
    }
  }

  /**
   * With all five monitors enabled, in the order the application creates
   * them, each category holds what its own monitor reads.
   */
  lemma FullSnapshot(timestamp: string, c: CpuMonitor.Cpu, memData: Value, swapData: Value,
                     n: NetMonitor.Net, d: DiskMonitor.Disk, p: ProcMonitor.Proc)
    requires Ready(MemMon(memData, swapData)) && Ready(NetMon(n))
    ensures var ms := [CpuMon(c), MemMon(memData, swapData), NetMon(n), DiskMon(d), ProcMon(p)];
      var m := Collect(timestamp, ms);
      && m.cpu == Apply(Empty, CpuMon(c)).cpu
      && m.memory == Apply(Empty, MemMon(memData, swapData)).memory
      && m.network == Apply(Empty, NetMon(n)).network
      && m.disk == Null && m.processes == Null && m.timestamp == timestamp
  {
    var ms := [CpuMon(c), MemMon(memData, swapData), NetMon(n), DiskMon(d), ProcMon(p)];
    assert AllReady(ms);
    CollectLastWins(timestamp, ms, CpuCategory, 0);
    CollectLastWins(timestamp, ms, NetworkCategory, 2);
    CollectCategories(timestamp, ms, CpuCategory);
    if Truthy(memData) {
      CollectLastWins(timestamp, ms, MemoryCategory, 1);
    } else {
      CollectCategories(timestamp, ms, MemoryCategory);
    }
  }

  /** `format || config.get('export.format') || 'json'` */
  function ResolveFormat(format: Value, configured: Value): Value
  {
    Or(Or(format, configured), Str("json"))
  }

  /** The argument wins when truthy, then the configured format, then "json". */
  lemma ResolveFormatChoice(format: Value, configured: Value)
    ensures Truthy(format) ==> ResolveFormat(format, configured) == format
    ensures !Truthy(format) && Truthy(configured) ==> ResolveFormat(format, configured) == configured
    ensures !Truthy(format) && !Truthy(configured) ==> ResolveFormat(format, configured) == Str("json")
    ensures Truthy(ResolveFormat(format, configured))
  {
  }

  /** The file extension of a format; None for a format the exporter does not know. */
  function Extension(format: Value): Option<string>
  {
    if format == Str("json") then Some(".json")
    else if format == Str("csv") then Some(".csv")
    else if format == Str("prometheus") then Some(".prom")
    else None
  }

  /** `timestamp.replace(/[:.]/g, '-')` */
  function Sanitize(timestamp: string): (r: string)
    ensures |r| == |timestamp|
  {
    seq(|timestamp|, i requires 0 <= i < |timestamp| =>
      if timestamp[i] == ':' || timestamp[i] == '.' then '-' else timestamp[i])
  }

  function Filename(timestamp: string, ext: string): string
  {
    "metrics-" + Sanitize(timestamp) + ext
  }

  /**
   * The name is "metrics-", the timestamp with every ':' and '.' turned into
   * '-' and every other character kept, then the extension; so no ':' and no
   * '.' comes before the extension.
   */
  lemma FilenameShape(timestamp: string, ext: string)
    ensures var name := Filename(timestamp, ext);
      && |name| == 8 + |timestamp| + |ext|
      && name[..8] == "metrics-" && name[8 + |timestamp|..] == ext
      && (forall i :: 0 <= i < |timestamp| ==>
            name[8 + i] == if timestamp[i] in ":." then '-' else timestamp[i])
      && (forall i :: 8 <= i < 8 + |timestamp| ==> name[i] != ':' && name[i] != '.')
  {
    var name := Filename(timestamp, ext);
    forall i | 0 <= i < |timestamp|
      ensures name[8 + i] == Sanitize(timestamp)[i]
    {
    }
  }

  /** Text lines, each followed by a newline. */
  function Lines(ls: seq<string>): string
  {
    if ls == [] then "" else ls[0] + "\n" + Lines(ls[1..])
  }

  lemma {:induction false} LinesSnoc(ls: seq<string>, l: string)
    ensures Lines(ls + [l]) == Lines(ls) + l + "\n"
  {
    if ls == [] {
      assert ls + [l] == [l];
    } else {
      assert (ls + [l])[1..] == ls[1..] + [l];
      LinesSnoc(ls[1..], l);
    }
  }

  lemma {:induction false} LinesAppend(a: seq<string>, b: seq<string>)
    ensures Lines(a + b) == Lines(a) + Lines(b)
  {
    if a == [] {
      assert a + b == b;
    } else {
      assert (a + b)[1..] == a[1..] + b;
      LinesAppend(a[1..], b);
    }
  }

  lemma {:induction false} LinesAsJoin(ls: seq<string>)
    ensures Lines(ls) == Join(ls + [""], "\n")
  {
    if ls != [] {
      LinesAsJoin(ls[1..]);
      assert (ls + [""])[1..] == ls[1..] + [""];
    }
  }

  /**
   * Text built of lines without newlines splits back, on '\n', into exactly
   * those lines and the empty text after the last newline.
   */
  lemma SplitLines(ls: seq<string>)
    requires forall l :: l in ls ==> '\n' !in l
    ensures Split(Lines(ls), '\n') == ls + [""]
  {
    LinesAsJoin(ls);
    SplitJoin(ls + [""], '\n');
  }

  /** The rows of the comma-separated export: metric name and value text, in order. */
  function CsvRecords(m: Metrics, show: real -> string): seq<(string, string)>
  {
    (if m.cpu.Some? then seq(|m.cpu.value|, i requires 0 <= i < |m.cpu.value| =>
       (m.cpu.value[i].title, show(m.cpu.value[i].load))) else [])
    + (if m.memory.Some? then [("memory_usage", ToText(m.memory.value.usage, show)),
                               ("swap_usage", ToText(m.memory.value.swap, show))] else [])
    + (if m.network.Some? then [("network_rx", show(m.network.value.rx)),
                                ("network_tx", show(m.network.value.tx))] else [])
    + (if Truthy(m.disk) && Truthy(Member(m.disk, "percent"))
       then [("disk_usage", ToText(Member(m.disk, "percent"), show))] else [])
  }

  const CsvHeader: string := "timestamp,metric,value"

  function CsvRow(timestamp: string, record: (string, string)): string
  {
    timestamp + "," + record.0 + "," + record.1
  }

  function CsvLines(m: Metrics, timestamp: string, show: real -> string): seq<string>
  {
    var records := CsvRecords(m, show);
    [CsvHeader] + seq(|records|, i requires 0 <= i < |records| => CsvRow(timestamp, records[i]))
  }

  /** The content of the comma-separated export. */
  function Csv(m: Metrics, timestamp: string, show: real -> string): string
  {
    Lines(CsvLines(m, timestamp, show))
  }

  /**
   * One row per core, two for memory, two for the network, one when the
   * disk entry has a truthy `percent`; an absent category adds none.
   */
  lemma CsvRowCount(m: Metrics, show: real -> string)
    ensures |CsvRecords(m, show)| ==
      (if m.cpu.Some? then |m.cpu.value| else 0)
      + (if m.memory.Some? then 2 else 0)
      + (if m.network.Some? then 2 else 0)
      + (if Truthy(m.disk) && Truthy(Member(m.disk, "percent")) then 1 else 0)
  {
  }

  /**
   * With no newline in the timestamp, names and values, the text reads back
   * as the header line and then one `timestamp,name,value` line per record.
   */
  lemma CsvReadsBack(m: Metrics, timestamp: string, show: real -> string)
    requires '\n' !in timestamp
    requires forall r :: r in CsvRecords(m, show) ==> '\n' !in r.0 && '\n' !in r.1
    ensures var records := CsvRecords(m, show);
      var lines := Split(Csv(m, timestamp, show), '\n');
      && |lines| == |records| + 2
      && lines[0] == "timestamp,metric,value"
      && lines[|lines| - 1] == ""
      && forall i :: 0 <= i < |records| ==> lines[i + 1] == timestamp + "," + records[i].0 + "," + records[i].1
  {
    var records := CsvRecords(m, show);
    var ls := CsvLines(m, timestamp, show);
    forall l | l in ls
      ensures '\n' !in l
    {
      if l != CsvHeader {
        var i :| 1 <= i < |ls| && ls[i] == l;
        assert records[i - 1] in records;
      }
    }
    SplitLines(ls);
  }

  /** A sample of a gauge: its label set (possibly empty) and value text. */
  datatype Sample = Sample(labels: string, value: string)

  /** A metric family: one HELP line, one TYPE line, then its samples. */
  datatype Block = Block(name: string, help: string, samples: seq<Sample>)

  function CpuSamples(loads: seq<CpuLoad>, show: real -> string): (r: seq<Sample>)
    ensures |r| == |loads|
    ensures forall i :: 0 <= i < |loads| ==> r[i] == Sample("{cpu=\"" + Decimal(i) + "\"}", show(loads[i].load))
  {
    seq(|loads|, i requires 0 <= i < |loads| => Sample("{cpu=\"" + Decimal(i) + "\"}", show(loads[i].load)))
  }

  function CpuBlocks(m: Metrics, show: real -> string): seq<Block>
  {
    if m.cpu.Some? then [Block("cpu_usage_percent", "CPU usage percentage", CpuSamples(m.cpu.value, show))] else []
  }

  function MemoryBlocks(m: Metrics, show: real -> string): seq<Block>
  {
    if m.memory.Some? then
      [Block("memory_usage_percent", "Memory usage percentage", [Sample("", ToText(m.memory.value.usage, show))]),
       Block("swap_usage_percent", "Swap usage percentage", [Sample("", ToText(m.memory.value.swap, show))])]
    else []
  }

  function NetworkBlocks(m: Metrics, show: real -> string): seq<Block>
  {
    if m.network.Some? then
      [Block("network_rx_bytes", "Network received bytes per second", [Sample("", show(m.network.value.rx))]),
       Block("network_tx_bytes", "Network transmitted bytes per second", [Sample("", show(m.network.value.tx))])]
    else []
  }

  function DiskBlocks(m: Metrics, show: real -> string): seq<Block>
  {
    if Truthy(m.disk) && Truthy(Member(m.disk, "percent")) then
      [Block("disk_usage_percent", "Disk usage percentage", [Sample("", ToText(Member(m.disk, "percent"), show))])]
    else []
  }

  /** The families of the Prometheus export, in their order. */
  function PromBlocks(m: Metrics, show: real -> string): seq<Block>
  {
    CpuBlocks(m, show) + MemoryBlocks(m, show) + NetworkBlocks(m, show) + DiskBlocks(m, show)
  }

  function SampleLine(name: string, s: Sample, ts: string): string
  {
    name + s.labels + " " + s.value + " " + ts
  }

  function BlockLines(b: Block, ts: string): (r: seq<string>)
    ensures |r| == 2 + |b.samples|
    ensures r[0] == "# HELP " + b.name + " " + b.help && r[1] == "# TYPE " + b.name + " gauge"
    ensures forall i :: 0 <= i < |b.samples| ==> r[i + 2] == SampleLine(b.name, b.samples[i], ts)
  {
    ["# HELP " + b.name + " " + b.help, "# TYPE " + b.name + " gauge"]
    + seq(|b.samples|, i requires 0 <= i < |b.samples| => SampleLine(b.name, b.samples[i], ts))
  }

  function PromLines(bs: seq<Block>, ts: string): seq<string>
  {
    if bs == [] then [] else BlockLines(bs[0], ts) + PromLines(bs[1..], ts)
  }

  lemma {:induction false} PromLinesAppend(a: seq<Block>, b: seq<Block>, ts: string)
    ensures PromLines(a + b, ts) == PromLines(a, ts) + PromLines(b, ts)
  {
    if a == [] {
      assert a + b == b;
    } else {
      assert (a + b)[1..] == a[1..] + b;
      PromLinesAppend(a[1..], b, ts);
    }
  }

  lemma PromPrefixStep(blocks: seq<Block>, b: nat, ts: string)
    requires b < |blocks|
    ensures Lines(PromLines(blocks[..b + 1], ts)) == Lines(PromLines(blocks[..b], ts)) + Lines(BlockLines(blocks[b], ts))
  {
    var x := blocks[b];
    assert blocks[..b + 1] == blocks[..b] + [x];
    assert PromLines([x], ts) == BlockLines(x, ts) by {
      assert [x][1..] == [];
      assert BlockLines(x, ts) + [] == BlockLines(x, ts);
    }
    PromLinesAppend(blocks[..b], [x], ts);
    LinesAppend(PromLines(blocks[..b], ts), BlockLines(x, ts));
  }

  /** The content of the Prometheus export, every sample stamped with `ts`. */
  function Prom(m: Metrics, ts: string, show: real -> string): string
  {
    Lines(PromLines(PromBlocks(m, show), ts))
  }

  function Names(bs: seq<Block>): (r: seq<string>)
    ensures |r| == |bs| && forall i :: 0 <= i < |bs| ==> r[i] == bs[i].name
  {
    seq(|bs|, i requires 0 <= i < |bs| => bs[i].name)
  }

  /** The families appear in the order cpu, memory, swap, rx, tx, disk, each only when present. */
  lemma PromOrder(m: Metrics, show: real -> string)
    ensures Names(PromBlocks(m, show)) ==
      (if m.cpu.Some? then ["cpu_usage_percent"] else [])
      + (if m.memory.Some? then ["memory_usage_percent", "swap_usage_percent"] else [])
      + (if m.network.Some? then ["network_rx_bytes", "network_tx_bytes"] else [])
      + (if Truthy(m.disk) && Truthy(Member(m.disk, "percent")) then ["disk_usage_percent"] else [])
  {
    var c, me, n, d := CpuBlocks(m, show), MemoryBlocks(m, show), NetworkBlocks(m, show), DiskBlocks(m, show);
    assert Names(c) == if m.cpu.Some? then ["cpu_usage_percent"] else [];
    assert Names(me) == if m.memory.Some? then ["memory_usage_percent", "swap_usage_percent"] else [];
    assert Names(n) == if m.network.Some? then ["network_rx_bytes", "network_tx_bytes"] else [];
    assert Names(d) == if Truthy(m.disk) && Truthy(Member(m.disk, "percent")) then ["disk_usage_percent"] else [];
    NamesAppend(c, me);
    NamesAppend(c + me, n);
    NamesAppend(c + me + n, d);
  }

  lemma NamesAppend(a: seq<Block>, b: seq<Block>)
    ensures Names(a + b) == Names(a) + Names(b)
  {
    assert forall i :: 0 <= i < |a| ==> (a + b)[i] == a[i];
    assert forall i :: |a| <= i < |a| + |b| ==> (a + b)[i] == b[i - |a|];
  }

  predicate EndsWith(s: string, t: string)
  {
    |t| <= |s| && s[|s| - |t|..] == t
  }

  predicate Comment(l: string)
  {
    |l| >= 7 && (l[..7] == "# HELP " || l[..7] == "# TYPE ")
  }

  /**
   * Each family opens with its HELP and TYPE lines; every other line is a
   * sample ending in the one shared timestamp.
   */
  lemma {:induction false} PromLinesShape(bs: seq<Block>, ts: string)
    ensures var ls := PromLines(bs, ts);
      forall j :: 0 <= j < |ls| ==> Comment(ls[j]) || EndsWith(ls[j], " " + ts)
  {
    if bs != [] {
      PromLinesShape(bs[1..], ts);
      var b := BlockLines(bs[0], ts);
      var ls := PromLines(bs, ts);
      forall j | 0 <= j < |b|
        ensures Comment(b[j]) || EndsWith(b[j], " " + ts)
      {
        if j >= 2 {
          var line := SampleLine(bs[0].name, bs[0].samples[j - 2], ts);
          assert b[j] == line;
          assert line[|line| - |" " + ts|..] == " " + ts;
        } else if j == 0 {
          assert b[0][..7] == "# HELP ";
        } else {
          assert b[1][..7] == "# TYPE ";
        }
      }
      assert forall j :: |b| <= j < |ls| ==> ls[j] == PromLines(bs[1..], ts)[j - |b|];
    }
  }

  lemma CpuSampleLine(i: nat, value: string, ts: string)
    ensures SampleLine("cpu_usage_percent", Sample("{cpu=\"" + Decimal(i) + "\"}", value), ts)
      == "cpu_usage_percent{cpu=\"" + Decimal(i) + "\"} " + value + " " + ts
  {
    var d := Decimal(i);
    assert "cpu_usage_percent" + "{cpu=\"" == "cpu_usage_percent{cpu=\"";
    assert "\"}" + " " == "\"} ";
    calc {
      SampleLine("cpu_usage_percent", Sample("{cpu=\"" + d + "\"}", value), ts);
      "cpu_usage_percent" + ("{cpu=\"" + d + "\"}") + " " + value + " " + ts;
      ("cpu_usage_percent" + "{cpu=\"") + d + ("\"}" + " ") + value + " " + ts;
    }
  }

  /** The CPU family has one sample per core, labelled with its zero-based index. */
  lemma CpuBlockLines(loads: seq<CpuLoad>, ts: string, show: real -> string)
    ensures var ls := BlockLines(Block("cpu_usage_percent", "CPU usage percentage", CpuSamples(loads, show)), ts);
      && |ls| == 2 + |loads|
      && forall i :: 0 <= i < |loads| ==>
           ls[i + 2] == "cpu_usage_percent{cpu=\"" + Decimal(i) + "\"} " + show(loads[i].load) + " " + ts
  {
    var samples := CpuSamples(loads, show);
    var ls := BlockLines(Block("cpu_usage_percent", "CPU usage percentage", samples), ts);
    forall i | 0 <= i < |loads|
      ensures ls[i + 2] == "cpu_usage_percent{cpu=\"" + Decimal(i) + "\"} " + show(loads[i].load) + " " + ts
    {
      assert ls[i + 2] == SampleLine("cpu_usage_percent", samples[i], ts);
      CpuSampleLine(i, show(loads[i].load), ts);
    }
  }

  /** A family with one unlabelled sample: HELP, TYPE and `name value ts`. */
  lemma ScalarBlockLines(name: string, help: string, value: string, ts: string)
    ensures BlockLines(Block(name, help, [Sample("", value)]), ts) ==
      ["# HELP " + name + " " + help, "# TYPE " + name + " gauge", (name + " ") + value + " " + ts]
  {
    var ls := BlockLines(Block(name, help, [Sample("", value)]), ts);
    assert ls[2] == name + "" + " " + value + " " + ts;
    assert name + "" == name;
  }

  /** The memory family and the swap family: HELP, TYPE and one sample line each. */
  lemma MemoryFamilyLines(m: Metrics, ts: string, show: real -> string)
    requires m.memory.Some?
    ensures var bs := MemoryBlocks(m, show);
      && BlockLines(bs[0], ts) == ["# HELP " + "memory_usage_percent" + " " + "Memory usage percentage",
           "# TYPE " + "memory_usage_percent" + " gauge",
           "memory_usage_percent " + ToText(m.memory.value.usage, show) + " " + ts]
      && BlockLines(bs[1], ts) == ["# HELP " + "swap_usage_percent" + " " + "Swap usage percentage",
           "# TYPE " + "swap_usage_percent" + " gauge",
           "swap_usage_percent " + ToText(m.memory.value.swap, show) + " " + ts]
  {
    assert "memory_usage_percent" + " " == "memory_usage_percent ";
    ScalarBlockLines("memory_usage_percent", "Memory usage percentage", ToText(m.memory.value.usage, show), ts);
    assert "swap_usage_percent" + " " == "swap_usage_percent ";
    ScalarBlockLines("swap_usage_percent", "Swap usage percentage", ToText(m.memory.value.swap, show), ts);
  }

  /** The received and transmitted families: HELP, TYPE and one sample line each. */
  lemma NetworkFamilyLines(m: Metrics, ts: string, show: real -> string)
    requires m.network.Some?
    ensures var bs := NetworkBlocks(m, show);
      && BlockLines(bs[0], ts) == ["# HELP " + "network_rx_bytes" + " " + "Network received bytes per second",
           "# TYPE " + "network_rx_bytes" + " gauge",
           "network_rx_bytes " + show(m.network.value.rx) + " " + ts]
      && BlockLines(bs[1], ts) == ["# HELP " + "network_tx_bytes" + " " + "Network transmitted bytes per second",
           "# TYPE " + "network_tx_bytes" + " gauge",
           "network_tx_bytes " + show(m.network.value.tx) + " " + ts]
  {
    assert "network_rx_bytes" + " " == "network_rx_bytes ";
    ScalarBlockLines("network_rx_bytes", "Network received bytes per second", show(m.network.value.rx), ts);
    assert "network_tx_bytes" + " " == "network_tx_bytes ";
    ScalarBlockLines("network_tx_bytes", "Network transmitted bytes per second", show(m.network.value.tx), ts);
  }

  /** The disk family, present when the disk value and its `percent` are truthy. */
  lemma DiskFamilyLines(m: Metrics, ts: string, show: real -> string)
    requires Truthy(m.disk) && Truthy(Member(m.disk, "percent"))
    ensures BlockLines(DiskBlocks(m, show)[0], ts) == ["# HELP " + "disk_usage_percent" + " " + "Disk usage percentage",
      "# TYPE " + "disk_usage_percent" + " gauge",
      "disk_usage_percent " + ToText(Member(m.disk, "percent"), show) + " " + ts]
  {
    assert "disk_usage_percent" + " " == "disk_usage_percent ";
    ScalarBlockLines("disk_usage_percent", "Disk usage percentage", ToText(Member(m.disk, "percent"), show), ts);
  }

  /** What an export produces: the directory, the file name and the content. */
  datatype ExportFile =
    | JsonFile(dir: Value, name: string, metrics: Metrics)
    | TextFile(dir: Value, name: string, text: string)

  /** The export of a snapshot in a resolved format; None for an unknown format. */
  function Exported(format: Value, dir: Value, timestamp: string, m: Metrics, nowMs: nat, show: real -> string): Option<ExportFile>
  {
    if format == Str("json") then Some(JsonFile(dir, Filename(timestamp, ".json"), m))
    else if format == Str("csv") then Some(TextFile(dir, Filename(timestamp, ".csv"), Csv(m, timestamp, show)))
    else if format == Str("prometheus") then Some(TextFile(dir, Filename(timestamp, ".prom"), Prom(m, Decimal(nowMs), show)))
    else None
  }

  /** A file is produced exactly for the three known formats, named by the timestamp and the format's extension. */
  lemma ExportedFormats(format: Value, dir: Value, timestamp: string, m: Metrics, nowMs: nat, show: real -> string)
    ensures var f := Exported(format, dir, timestamp, m, nowMs, show);
      && (f.Some? <==> Extension(format).Some?)
      && (f.Some? ==> f.value.name == Filename(timestamp, Extension(format).value) && f.value.dir == dir)
      && (f.Some? && f.value.TextFile? ==> format != Str("json"))
  {
  }

  class Exporter {
    var monitors: seq<Monitor>
    var interval: Option<nat>
    /** the configured `export.path`, or "./metrics" */
    const exportPath: Value

    constructor (configuredPath: Value)
      ensures monitors == [] && interval == None && exportPath == Or(configuredPath, Str("./metrics"))
    {
      monitors := [];
      interval := None;
      exportPath := Or(configuredPath, Str("./metrics"));
    }

    /**
     * Takes the monitors; the periodic export timer starts only when the
     * configured `export.interval` is a positive number.
     */
    method Init(ms: seq<Monitor>, configuredInterval: Value, timer: nat)
      modifies this`monitors, this`interval
      ensures monitors == ms
      ensures interval == if configuredInterval.Num? && configuredInterval.n > 0.0 then Some(timer) else old(interval)
    {
      monitors := ms;
      if Truthy(configuredInterval) && configuredInterval.Num? && configuredInterval.n > 0.0 {
        interval := Some(timer);
      }
    }

    /** The snapshot, or None when reading a memory monitor throws. */
    method CollectMetrics(timestamp: string) returns (metrics: Option<Metrics>)
      requires AllShaped(monitors)
      ensures metrics == Snapshot(timestamp, monitors)
    {
      var m := Empty.(timestamp := timestamp);
      for i := 0 to |monitors|
        invariant AllShaped(monitors[..i])
        invariant Snapshot(timestamp, monitors[..i]) == Some(m)
      {
        assert monitors[..i + 1][..i] == monitors[..i];
        assert monitors[..i + 1][i] == monitors[i];
        var monitor := monitors[i];
        match monitor
        case CpuMon(c) =>
          m := m.(cpu := Some(Loads(c.cpuData)));
        case MemMon(memData, swapData) =>
          if Truthy(memData) {
            if !Readable(Member(memData, "0")) || (Truthy(swapData) && !Readable(Member(swapData, "0"))) {
              SnapshotAborts(timestamp, monitors, i);
              return None;
            }
            var swap := if Truthy(swapData) then Member(Member(swapData, "0"), "percent") else Num(0.0);
            m := m.(memory := Some(Memory(Or(Member(Member(memData, "0"), "percent"), Num(0.0)), swap)));
          }
        case NetMon(n) =>
          m := m.(network := Some(Network(Last(n.netData[0]), Last(n.netData[1]))));
        case DiskMon(_) =>
        case ProcMon(_) =>
      }
      assert monitors[..|monitors|] == monitors;
      metrics := Some(m);
    }

    static method ExportCsv(metrics: Metrics, timestamp: string, show: real -> string) returns (csv: string)
      ensures csv == Csv(metrics, timestamp, show)
    {
      var records := CsvRecords(metrics, show);
      ghost var lines := CsvLines(metrics, timestamp, show);
      csv := CsvHeader + "\n";
      assert lines[..1] == [] + [CsvHeader];
      LinesSnoc([], CsvHeader);
      for i := 0 to |records|
        invariant csv == Lines(lines[..i + 1])
      {
        assert lines[..i + 2] == lines[..i + 1] + [lines[i + 1]];
        assert lines[i + 1] == CsvRow(timestamp, records[i]);
        LinesSnoc(lines[..i + 1], lines[i + 1]);
        csv := csv + CsvRow(timestamp, records[i]) + "\n";
      }
      assert lines[..|records| + 1] == lines;
    }

    /** One family's text: its HELP and TYPE lines, then one line per sample. */
    static method BlockText(block: Block, ts: string) returns (text: string)
      ensures text == Lines(BlockLines(block, ts))
    {
      ghost var all := BlockLines(block, ts);
      ghost var lines: seq<string> := [];
      LinesSnoc(lines, "# HELP " + block.name + " " + block.help);
      text := "# HELP " + block.name + " " + block.help + "\n";
      lines := lines + ["# HELP " + block.name + " " + block.help];
      LinesSnoc(lines, "# TYPE " + block.name + " gauge");
      text := text + "# TYPE " + block.name + " gauge\n";
      lines := lines + ["# TYPE " + block.name + " gauge"];
      assert lines == all[..2];
      for i := 0 to |block.samples|
        invariant lines == all[..i + 2]
        invariant text == Lines(lines)
      {
        var s := block.samples[i];
        var line := SampleLine(block.name, s, ts);
        LinesSnoc(lines, line);
        assert all[..i + 3] == all[..i + 2] + [line];
        text := text + line + "\n";
        lines := lines + [line];
      }
      assert all[..|block.samples| + 2] == all;
    }

    static method ExportPrometheus(metrics: Metrics, nowMs: nat, show: real -> string) returns (prom: string)
      ensures prom == Prom(metrics, Decimal(nowMs), show)
    {
      var ts := Decimal(nowMs);
      var blocks := PromBlocks(metrics, show);
      prom := "";
      for b := 0 to |blocks|
        invariant prom == Lines(PromLines(blocks[..b], ts))
      {
        var text := BlockText(blocks[b], ts);
        PromPrefixStep(blocks, b, ts);
        prom := prom + text;
      }
      assert blocks[..|blocks|] == blocks;
    }

    /**
     * `export(format)`: resolves the format, takes the snapshot and builds
     * the file. `fileStamp` and `snapStamp` are the two clock readings
     * (the file name and CSV rows use the first, the snapshot the second);
     * `nowMs` is the Prometheus sample timestamp.
     */
    method Export(format: Value, configuredFormat: Value, fileStamp: string, snapStamp: string, nowMs: nat, show: real -> string)
      returns (file: Option<ExportFile>, thrown: bool)
      requires AllShaped(monitors)
      ensures thrown <==> AnyThrows(monitors)
      ensures thrown ==> file == None
      ensures !thrown ==>
        && AllReady(monitors)
        && file == Exported(ResolveFormat(format, configuredFormat), exportPath, fileStamp, Collect(snapStamp, monitors), nowMs, show)
    {
      var exportFormat := Or(Or(format, configuredFormat), Str("json"));
      var snapshot := CollectMetrics(snapStamp);
      if snapshot.None? {
        return None, true;
      }
      thrown := false;
      var metrics := snapshot.value;
      label collected:
      file := Render(exportFormat, exportPath, fileStamp, metrics, nowMs, show);
      // the text builders allocate nothing the snapshot reads
      assert unchanged@collected(Footprint(monitors));
    }

    /** The file for a resolved format: JSON, CSV, Prometheus text, or none for an unknown format. */
    static method Render(exportFormat: Value, dir: Value, fileStamp: string, metrics: Metrics, nowMs: nat, show: real -> string)
      returns (file: Option<ExportFile>)
      ensures file == Exported(exportFormat, dir, fileStamp, metrics, nowMs, show)
    {
      if exportFormat == Str("json") {
        file := Some(JsonFile(dir, Filename(fileStamp, ".json"), metrics));
      } else if exportFormat == Str("csv") {
        var csv := ExportCsv(metrics, fileStamp, show);
        file := Some(TextFile(dir, Filename(fileStamp, ".csv"), csv));
      } else if exportFormat == Str("prometheus") {
        var prom := ExportPrometheus(metrics, nowMs, show);
        file := Some(TextFile(dir, Filename(fileStamp, ".prom"), prom));
      } else {
        file := None;
      }
    }

    /** Stops the export timer if one was started. */
    method Cleanup() returns (cleared: Option<nat>)
      ensures cleared == interval
    {
      cleared := None;
      if interval.Some? {
        cleared := interval;
      }
    }
  }
}

=== FILE: js.dfy ===
/**
 * JavaScript values as the monitors, the exporter and the configuration see
 * them: the shapes a metrics provider answers with, the parsed configuration
 * file, and the fields of a metrics snapshot. Truthiness, `typeof`, the `in`
 * operator and property access are written out here once.
 */
module Js {
  import opened Wrappers
  import opened Text

  datatype Value =
    | Undefined
    | Null
    | Bool(b: bool)
    | Num(n: real)
    | Str(s: string)
    | Arr(items: seq<Value>)
    | Obj(fields: map<string, Value>)

  /** `!!v` (NaN is not among the modelled numbers) */
  predicate Truthy(v: Value) {
    match v
    case Undefined => false
    case Null => false
    case Bool(b) => b
    case Num(n) => n != 0.0
    case Str(s) => s != ""
    case Arr(_) => true
    case Obj(_) => true
  }

  /** `typeof v === 'object'`: null, arrays and plain objects */
  predicate TypeofObject(v: Value) {
    v.Null? || v.Arr? || v.Obj?
  }

  /** `a || b` */
  function Or(a: Value, b: Value): Value {
    if Truthy(a) then a else b
  }

  /** The array index a property key stands for: its canonical decimal form. */
  function IndexOf(k: string): Option<nat> {
    ParseDecimal(k)
  }

  /** `k in v` for an object or an array (own properties only). */
  predicate HasKey(v: Value, k: string) {
    match v
    case Obj(fields) => k in fields
    case Arr(items) => k == "length" || (IndexOf(k).Some? && IndexOf(k).value < |items|)
    case _ => false
  }

  /** `v[k]`, for every value that is not `undefined` or `null`. */
  function Member(v: Value, k: string): Value {
    match v
    case Obj(fields) => if k in fields then fields[k] else Undefined
    case Arr(items) =>
      if k == "length" then Num(|items| as real)
      else if IndexOf(k).Some? && IndexOf(k).value < |items| then items[IndexOf(k).value]
      else Undefined
    case Str(s) =>
      if k == "length" then Num(|s| as real)
      else if IndexOf(k).Some? && IndexOf(k).value < |s| then Str([s[IndexOf(k).value]])
      else Undefined
    case _ => Undefined
  }

  /** Reading a property of `undefined` or `null` throws a TypeError. */
  predicate Readable(v: Value) {
    !v.Undefined? && !v.Null?
  }

  /** String(v), as a template literal renders a value; `show` renders numbers. */
  function ToText(v: Value, show: real -> string): string {
    match v
    case Undefined => "undefined"
    case Null => "null"
    case Bool(b) => if b then "true" else "false"
    case Num(n) => show(n)
    case Str(s) => s
    case Arr(items) =>
      Join(seq(|items|, i requires 0 <= i < |items| =>
        if items[i].Undefined? || items[i].Null? then "" else ToText(items[i], show)), ",")
    case Obj(_) => "[object Object]"
  }

  /** `a.shift(); a.push(v)`: the oldest element leaves (if any), `v` enters at the end. */
  function ShiftPush<T>(a: seq<T>, v: T): seq<T>
  {
    (if a == [] then [] else a[1..]) + [v]
  }

  /** On a non-empty window the length is kept, the rest moves one place towards the front. */
  lemma ShiftPushSlides<T>(a: seq<T>, v: T)
    requires a != []
    ensures var r := ShiftPush(a, v);
      |r| == |a| && r[|r| - 1] == v && forall i :: 0 <= i < |a| - 1 ==> r[i] == a[i + 1]
  {
  }
}

=== FILE: net.dfy ===
/**
 * The network monitor: two 61-sample windows (receive, transmit) of
 * per-second rates clamped at zero, and two summary labels with the current
 * rate and the running total, redrawn on every update.
 */
module NetMonitor {
  import opened Wrappers
  import opened Js
  import opened Utils

  const Width: nat := 61

  function Zeros(): (w: seq<real>)
    ensures |w| == Width
    ensures forall i :: 0 <= i < |w| ==> w[i] == 0.0
  {
    seq(Width, _ => 0.0)
  }

  /** A rate field is a number, or missing or otherwise falsy. */
  predicate RateShaped(v: Value)
  {
    !Truthy(v) || v.Num?
  }

  /** Math.max(0, data[field] || 0) */
  function Rate(data: Value, field: string): (r: real)
    requires RateShaped(Member(data, field))
    ensures r >= 0.0
    ensures Member(data, field).Num? && Member(data, field).n > 0.0 ==> r == Member(data, field).n
    ensures !(Member(data, field).Num? && Member(data, field).n > 0.0) ==> r == 0.0
  {
    var v := Or(Member(data, field), Num(0.0));
    if v.n > 0.0 then v.n else 0.0
  }

  function RxLabel(rate: real, total: Value): string
  {
    "Receiving:      " + HumanFileSize(Num(rate), false) +
    "/s \nTotal received: " + HumanFileSize(Or(total, Num(0.0)), false)
  }

  function TxLabel(rate: real, total: Value): string
  {
    "Transferring:      " + HumanFileSize(Num(rate), false) +
    "/s \nTotal transferred: " + HumanFileSize(Or(total, Num(0.0)), false)
  }

  /** The `|| 0` before formatting a total changes nothing: the formatter already maps falsy input to "0.00 B". */
  lemma TotalFallbackIsRedundant(total: Value)
    ensures HumanFileSize(Or(total, Num(0.0)), false) == HumanFileSize(total, false)
  {
  }

  /** What the sparkline receives: the two labels and the two windows. */
  datatype Sparkline = Sparkline(labels: seq<string>, series: seq<seq<real>>)

  class Net {
    /** the receive window, then the transmit window */
    var netData: seq<seq<real>>
    var interval: Option<nat>
    /** the poll period in milliseconds */
    const period: nat

    /** Two windows of 61 samples, none negative. */
    ghost predicate Valid()
      reads this
    {
      && |netData| == 2
      && (forall k :: 0 <= k < 2 ==> |netData[k]| == Width)
      && (forall k, i :: 0 <= k < 2 && 0 <= i < Width ==> netData[k][i] >= 0.0)
    }

    constructor ()
      ensures Valid() && netData == [Zeros(), Zeros()] && interval == None && period == 1000
    {
      netData := [Zeros(), Zeros()];
      interval := None;
      period := 1000;
    }

    /**
     * One interface's counters: unless `data` is falsy, both windows slide
     * by the clamped rates and the labels and windows are handed to the
     * sparkline, which redraws at once.
     */
    method UpdateData(data: Value) returns (shown: Option<Sparkline>)
      requires Valid()
      requires Truthy(data) ==> RateShaped(Member(data, "rx_sec")) && RateShaped(Member(data, "tx_sec"))
      modifies this`netData
      ensures Valid()
      ensures !Truthy(data) ==> netData == old(netData) && shown == None
      ensures Truthy(data) ==>
        var rx, tx := Rate(data, "rx_sec"), Rate(data, "tx_sec");
        && netData == [ShiftPush(old(netData[0]), rx), ShiftPush(old(netData[1]), tx)]
        && netData[0][Width - 1] == rx && netData[1][Width - 1] == tx
        && shown == Some(Sparkline(
             [RxLabel(rx, Member(data, "rx_bytes")), TxLabel(tx, Member(data, "tx_bytes"))],
             netData))
    {
      if !Truthy(data) {
        return None;
      }
      var rx := Rate(data, "rx_sec");
      var tx := Rate(data, "tx_sec");
      ShiftPushSlides(netData[0], rx);
      ShiftPushSlides(netData[1], tx);
      netData := [ShiftPush(netData[0], rx), ShiftPush(netData[1], tx)];
      var rxLabel := RxLabel(rx, Member(data, "rx_bytes"));
      var txLabel := TxLabel(tx, Member(data, "tx_bytes"));
      shown := Some(Sparkline([rxLabel, txLabel], netData));
    }

    /** The default interface was resolved: unless it is missing, the poll timer starts. */
    method Start(iface: Value, timer: nat)
      modifies this`interval
      ensures interval == if Truthy(iface) then Some(timer) else old(interval)
    {
      if Truthy(iface) {
        interval := Some(timer);
      }
    }

    /** The answer to a statistics request: the first interface's counters, if there are any. */
    method OnStats(data: Value) returns (shown: Option<Sparkline>)
      requires Valid()
      requires data.Arr? && |data.items| > 0 && Truthy(data.items[0]) ==>
        RateShaped(Member(data.items[0], "rx_sec")) && RateShaped(Member(data.items[0], "tx_sec"))
      modifies this`netData
      ensures Valid()
      ensures !(data.Arr? && |data.items| > 0) ==> netData == old(netData) && shown == None
      ensures data.Arr? && |data.items| > 0 ==>
        var first := data.items[0];
        && (!Truthy(first) ==> netData == old(netData) && shown == None)
        && (Truthy(first) ==>
              var rx, tx := Rate(first, "rx_sec"), Rate(first, "tx_sec");
              && netData == [ShiftPush(old(netData[0]), rx), ShiftPush(old(netData[1]), tx)]
              && shown == Some(Sparkline(
                   [RxLabel(rx, Member(first, "rx_bytes")), TxLabel(tx, Member(first, "tx_bytes"))],
                   netData)))
    {
      shown := None;
      if Truthy(data) && data.Arr? && |data.items| > 0 {
        shown := UpdateData(data.items[0]);
      }
    }

    /** Stops the poll timer if it was started. */
    method Cleanup() returns (cleared: Option<nat>)
      ensures cleared == interval
    {
      cleared := None;
      if interval.Some? {
        cleared := interval;
      }
    }
  }
}

=== FILE: proc.dfy ===
/**
 * The process table: a small state machine over the sort key, the sort
 * direction, the search term and the re-index flag, driven by key presses,
 * and the table view derived from each process list the provider returns
 * (filter by the search term, stable sort by the key in descending order,
 * optionally reversed, with annotated column headers).
 */
module ProcMonitor {
  import opened Wrappers
  import opened Js
  import opened Text

  datatype SortKey = Pid | Cpu | Mem

  /** The sort keys bound to the keys 'p', 'c' and 'm'. */
  function Pars(ch: char): Option<SortKey>
  {
    if ch == 'p' then Some(Pid) else if ch == 'c' then Some(Cpu) else if ch == 'm' then Some(Mem) else None
  }

  /** The fields the key handlers change. */
  datatype TableState = TableState(pSort: SortKey, reverse: bool, searchTerm: string, reIndex: bool)

  /** Sorted by CPU, descending, no search, no pending re-index. */
  const Initial: TableState := TableState(Cpu, false, "", false)

  /** A sort key pressed: the active key flips the direction, another key becomes active. */
  function OnSortKey(s: TableState, ch: char): TableState
  {
    if Pars(ch) == Some(s.pSort) then s.(reverse := !s.reverse, reIndex := true)
    else s.(pSort := if Pars(ch).Some? then Pars(ch).value else s.pSort, reIndex := true)
  }

  /** The search prompt answered: a non-empty value without error becomes the lower-cased term. */
  function OnSearch(s: TableState, err: bool, value: Option<string>): TableState
  {
    if !err && value.Some? && value.value != "" then s.(searchTerm := Lower(value.value), reIndex := true) else s
  }

  /** Escape pressed: an active search is cleared; otherwise nothing happens here. */
  function OnEscape(s: TableState): TableState
  {
    if s.searchTerm != "" then s.(searchTerm := "", reIndex := true) else s
  }

  /**
   * The active key flips the direction (so pressing it twice restores it);
   * any other sort key becomes active with the direction kept; the search
   * term is never touched, and a re-index is always requested.
   */
  lemma SortKeyTransitions(s: TableState, ch: char)
    requires Pars(ch).Some?
    ensures var s' := OnSortKey(s, ch);
      && s'.reIndex && s'.searchTerm == s.searchTerm && s'.pSort == Pars(ch).value
      && (Pars(ch).value == s.pSort ==> s'.reverse == !s.reverse && OnSortKey(s', ch) == s.(reIndex := true))
      && (Pars(ch).value != s.pSort ==> s'.reverse == s.reverse)
  {
  }

  /** Search changes the state only for an accepted value, storing it lower-cased; escape is idempotent. */
  lemma SearchAndEscape(s: TableState, err: bool, value: Option<string>)
    ensures OnSearch(s, err, value) != s ==> !err && value.Some? && value.value != ""
    ensures !err && value.Some? && value.value != "" ==>
      var s' := OnSearch(s, err, value);
      s'.searchTerm == Lower(value.value) && s'.reIndex && s'.pSort == s.pSort && s'.reverse == s.reverse
    ensures OnEscape(OnEscape(s)) == OnEscape(s) && OnEscape(s).searchTerm == ""
    ensures s.searchTerm == "" ==> OnEscape(s) == s
  {
  }

  /** A row of the provider's process list. */
  datatype Process = Process(pid: nat, command: string, cpu: real, mem: real)

  function AsProcess(v: Value): Option<Process>
  {
    var pid, command, cpu, mem := Member(v, "pid"), Member(v, "command"), Member(v, "cpu"), Member(v, "mem");
    if pid.Num? && pid.n >= 0.0 && pid.n.Floor as real == pid.n && command.Str? && cpu.Num? && mem.Num?
    then Some(Process(pid.n.Floor, command.s, cpu.n, mem.n))
    else None
  }

  /** Every entry of the list is a process record, as the provider promises. */
  predicate WellFormed(items: seq<Value>)
  {
    forall i :: 0 <= i < |items| ==> AsProcess(items[i]).Some?
  }

  function Decode(items: seq<Value>): (list: seq<Process>)
    requires WellFormed(items)
    ensures |list| == |items|
  {
    seq(|items|, i requires 0 <= i < |items| => AsProcess(items[i]).value)
  }

  /** The provider answer is used at all: `data.list` is an array. */
  predicate Accepted(data: Value)
  {
    Truthy(data) && Truthy(Member(data, "list")) && Member(data, "list").Arr?
  }

  /** A process matches a term in its lower-cased command or in its pid's decimal text. */
  predicate Matches(p: Process, term: string)
  {
    Contains(Lower(p.command), term) || Contains(Decimal(p.pid), term)
  }

  function Matching(list: seq<Process>, term: string): seq<Process>
  {
    if list == [] then []
    else (if Matches(list[0], term) then [list[0]] else []) + Matching(list[1..], term)
  }

  /** The list the table shows rows of, before sorting. */
  function Filter(list: seq<Process>, term: string): seq<Process>
  {
    if term == "" then list else Matching(list, term)
  }

  /** With a term, the filtered list holds exactly the matching processes, each as often as in the list. */
  lemma {:induction false} MatchingCounts(list: seq<Process>, term: string)
    ensures forall p :: multiset(Matching(list, term))[p] == if Matches(p, term) then multiset(list)[p] else 0
  {
    if list != [] {
      MatchingCounts(list[1..], term);
      assert list == [list[0]] + list[1..];
    }
  }

  /** The comparator's field */
  function Key(p: Process, k: SortKey): real
  {
    match k
    case Pid => p.pid as real
    case Cpu => p.cpu
    case Mem => p.mem
  }

  ghost predicate Descending(s: seq<Process>, k: SortKey)
  {
    forall i, j :: 0 <= i < j < |s| ==> Key(s[i], k) >= Key(s[j], k)
  }

  /** The processes of `s` whose key is `v`, in their order. */
  function WithKey(s: seq<Process>, k: SortKey, v: real): seq<Process>
  {
    if s == [] then [] else (if Key(s[0], k) == v then [s[0]] else []) + WithKey(s[1..], k, v)
  }

  /** Inserts p before the first element whose key is not larger than its own. */
  function Insert(p: Process, s: seq<Process>, k: SortKey): seq<Process>
  {
    if s == [] || Key(p, k) >= Key(s[0], k) then [p] + s else [s[0]] + Insert(p, s[1..], k)
  }

  /** A stable sort in descending order of the key: Array.prototype.sort with comparator b[key] - a[key]. */
  function SortDesc(s: seq<Process>, k: SortKey): seq<Process>
  {
    if s == [] then [] else Insert(s[0], SortDesc(s[1..], k), k)
  }

  lemma {:induction false} InsertPermutes(p: Process, s: seq<Process>, k: SortKey)
    ensures multiset(Insert(p, s, k)) == multiset(s) + multiset{p}
  {
    if s != [] && Key(p, k) < Key(s[0], k) {
      InsertPermutes(p, s[1..], k);
      assert s == [s[0]] + s[1..];
    }
  }

  /** Every key of `s` is at most `b`. */
  ghost predicate KeysAtMost(s: seq<Process>, k: SortKey, b: real)
  {
    forall j :: 0 <= j < |s| ==> Key(s[j], k) <= b
  }

  lemma {:induction false} InsertKeysAtMost(p: Process, s: seq<Process>, k: SortKey, b: real)
    requires KeysAtMost(s, k, b) && Key(p, k) <= b
    ensures KeysAtMost(Insert(p, s, k), k, b)
  {
    if s != [] && Key(p, k) < Key(s[0], k) {
      InsertKeysAtMost(p, s[1..], k, b);
      var r := Insert(p, s, k);
      assert r == [s[0]] + Insert(p, s[1..], k);
      assert forall j :: 1 <= j < |r| ==> r[j] == Insert(p, s[1..], k)[j - 1];
    }
  }

  lemma ConsDescending(x: Process, s: seq<Process>, k: SortKey)
    requires Descending(s, k) && KeysAtMost(s, k, Key(x, k))
    ensures Descending([x] + s, k)
  {
    var r := [x] + s;
    assert forall j :: 1 <= j < |r| ==> r[j] == s[j - 1];
  }

  lemma {:induction false} InsertOrders(p: Process, s: seq<Process>, k: SortKey)
    requires Descending(s, k)
    ensures Descending(Insert(p, s, k), k)
  {
    if s == [] || Key(p, k) >= Key(s[0], k) {
      assert KeysAtMost(s, k, Key(p, k)) by {
        if s != [] {
          assert forall j :: 0 <= j < |s| ==> Key(s[j], k) <= Key(s[0], k);
        }
      }
      ConsDescending(p, s, k);
    } else {
      var tail := s[1..];
      InsertOrders(p, tail, k);
      assert KeysAtMost(tail, k, Key(s[0], k)) by {
        assert forall j :: 0 <= j < |tail| ==> tail[j] == s[j + 1];
      }
      InsertKeysAtMost(p, tail, k, Key(s[0], k));
      assert Descending(tail, k) by {
        assert forall j :: 0 <= j < |tail| ==> tail[j] == s[j + 1];
      }
      ConsDescending(s[0], Insert(p, tail, k), k);
    }
  }

  lemma {:induction false} WithKeyConcat(a: seq<Process>, b: seq<Process>, k: SortKey, v: real)
    ensures WithKey(a + b, k, v) == WithKey(a, k, v) + WithKey(b, k, v)
  {
    if a == [] {
      assert a + b == b;
    } else {
      var x, t := a[0], a[1..];
      assert a == [x] + t;
      assert a + b == [x] + (t + b);
      WithKeyCons(x, t, k, v);
      WithKeyCons(x, t + b, k, v);
      WithKeyConcat(t, b, k, v);
    }
  }

  lemma WithKeyCons(x: Process, s: seq<Process>, k: SortKey, v: real)
    ensures WithKey([x] + s, k, v) == (if Key(x, k) == v then [x] else []) + WithKey(s, k, v)
  {
    assert ([x] + s)[1..] == s;
  }

  lemma {:induction false} InsertStable(p: Process, s: seq<Process>, k: SortKey, v: real)
    ensures WithKey(Insert(p, s, k), k, v) == WithKey([p] + s, k, v)
  {
    if s != [] && Key(p, k) < Key(s[0], k) {
      var x, rest := s[0], s[1..];
      var hp: seq<Process> := if Key(p, k) == v then [p] else [];
      var hx: seq<Process> := if Key(x, k) == v then [x] else [];
      assert s == [x] + rest;
      assert Insert(p, s, k) == [x] + Insert(p, rest, k);
      WithKeyCons(x, Insert(p, rest, k), k, v);
      InsertStable(p, rest, k, v);
      WithKeyCons(p, rest, k, v);
      WithKeyCons(p, s, k, v);
      WithKeyCons(x, rest, k, v);
      // p and x have different keys, so at most one of them is kept
      assert hp == [] || hx == [];
      assert hx + (hp + WithKey(rest, k, v)) == hp + (hx + WithKey(rest, k, v));
    }
  }

  lemma {:induction false} SortPermutes(s: seq<Process>, k: SortKey)
    ensures multiset(SortDesc(s, k)) == multiset(s)
  {
    if s != [] {
      SortPermutes(s[1..], k);
      InsertPermutes(s[0], SortDesc(s[1..], k), k);
      assert s == [s[0]] + s[1..];
    }
  }

  lemma {:induction false} SortOrders(s: seq<Process>, k: SortKey)
    ensures Descending(SortDesc(s, k), k)
  {
    if s != [] {
      SortOrders(s[1..], k);
      InsertOrders(s[0], SortDesc(s[1..], k), k);
    }
  }

  lemma {:induction false} SortStable(s: seq<Process>, k: SortKey, v: real)
    ensures WithKey(SortDesc(s, k), k, v) == WithKey(s, k, v)
  {
    if s != [] {
      var rest := SortDesc(s[1..], k);
      SortStable(s[1..], k, v);
      InsertStable(s[0], rest, k, v);
      WithKeyConcat([s[0]], rest, k, v);
      WithKeyConcat([s[0]], s[1..], k, v);
      assert s == [s[0]] + s[1..];
    }
  }

  /**
   * The sort is a permutation, descending by the key, and stable: the
   * processes sharing a key value keep their relative order.
   */
  lemma SortDescSpec(s: seq<Process>, k: SortKey)
    ensures multiset(SortDesc(s, k)) == multiset(s)
    ensures Descending(SortDesc(s, k), k)
    ensures forall v :: WithKey(SortDesc(s, k), k, v) == WithKey(s, k, v)
  {
    SortPermutes(s, k);
    SortOrders(s, k);
    forall v
      ensures WithKey(SortDesc(s, k), k, v) == WithKey(s, k, v)
    {
      SortStable(s, k, v);
    }
  }

  function Reverse<T>(s: seq<T>): (r: seq<T>)
    ensures |r| == |s|
    ensures forall i :: 0 <= i < |s| ==> r[i] == s[|s| - 1 - i]
  {
    seq(|s|, i requires 0 <= i < |s| => s[|s| - 1 - i])
  }

  /** A table row: pid, command, CPU and memory percentages to one decimal. */
  datatype Row = Row(pid: nat, command: string, cpu: string, mem: string)

  function ToRow(p: Process): Row
  {
    Row(p.pid, p.command, " " + ToFixed(p.cpu, 1), ToFixed(p.mem, 1))
  }

  function Rows(ps: seq<Process>): (rows: seq<Row>)
    ensures |rows| == |ps|
  {
    seq(|ps|, i requires 0 <= i < |ps| => ToRow(ps[i]))
  }

  /** The header column of a sort key: pid 0, cpu 2, mem 3 (never the command column). */
  function Column(k: SortKey): nat
  {
    match k
    case Pid => 0
    case Cpu => 2
    case Mem => 3
  }

  const PlainHeaders: seq<string> := ["PID", "Command", "%CPU", "%MEM"]

  function Headers(s: TableState): seq<string>
  {
    var h := if s.searchTerm != "" then PlainHeaders[1 := "Command (/" + s.searchTerm + ")"] else PlainHeaders;
    h[Column(s.pSort) := h[Column(s.pSort)] + (if s.reverse then "▲" else "▼")]
  }

  /** What the table widget receives. */
  datatype TableData = TableData(headers: seq<string>, rows: seq<Row>)

  /** The view of a process list in a given state: rows sorted, then reversed when asked. */
  function View(list: seq<Process>, s: TableState): TableData
  {
    var rows := Rows(SortDesc(Filter(list, s.searchTerm), s.pSort));
    TableData(Headers(s), if s.reverse then Reverse(rows) else rows)
  }

  /** The processes in the order the table shows them. */
  function Ordered(list: seq<Process>, s: TableState): seq<Process>
  {
    var sorted := SortDesc(Filter(list, s.searchTerm), s.pSort);
    if s.reverse then Reverse(sorted) else sorted
  }

  /** The rows shown are those of the processes in `Ordered` order. */
  lemma ViewRows(list: seq<Process>, s: TableState)
    ensures View(list, s).rows == Rows(Ordered(list, s))
  {
  }

  /**
   * A process is shown exactly when the search is off or it matches, as
   * often as it is listed.
   */
  lemma OrderedCounts(list: seq<Process>, s: TableState, p: Process)
    ensures multiset(Ordered(list, s))[p] ==
      (if s.searchTerm == "" || Matches(p, s.searchTerm) then multiset(list)[p] else 0)
  {
    var filtered := Filter(list, s.searchTerm);
    var sorted := SortDesc(filtered, s.pSort);
    SortDescSpec(filtered, s.pSort);
    if s.searchTerm != "" {
      MatchingCounts(list, s.searchTerm);
    }
    ReverseMultiset(sorted);
  }

  /** The shown order is descending by the active key, ascending when reversed. */
  lemma OrderedOrder(list: seq<Process>, s: TableState, i: int, j: int)
    requires 0 <= i < j < |Ordered(list, s)|
    ensures var o := Ordered(list, s);
      if s.reverse then Key(o[i], s.pSort) <= Key(o[j], s.pSort) else Key(o[i], s.pSort) >= Key(o[j], s.pSort)
  {
    var sorted := SortDesc(Filter(list, s.searchTerm), s.pSort);
    SortOrders(Filter(list, s.searchTerm), s.pSort);
    if s.reverse {
      var n := |sorted|;
      assert Ordered(list, s) == Reverse(sorted);
      assert Key(sorted[n - 1 - j], s.pSort) >= Key(sorted[n - 1 - i], s.pSort);
    } else {
      assert Ordered(list, s) == sorted;
      assert Key(sorted[i], s.pSort) >= Key(sorted[j], s.pSort);
    }
  }

  lemma {:induction false} ReverseMultiset<T>(s: seq<T>)
    ensures multiset(Reverse(s)) == multiset(s)
  {
    if s != [] {
      var t := s[1..];
      ReverseMultiset(t);
      assert Reverse(s) == Reverse(t) + [s[0]];
      assert s == [s[0]] + t;
    }
  }

  /**
   * The active key's column carries ▲ when reversed and ▼ otherwise, the
   * command column names the active search term, the rest are plain.
   */
  lemma HeadersSpec(s: TableState)
    ensures var h := Headers(s);
      && |h| == 4
      && h[Column(s.pSort)] == PlainHeaders[Column(s.pSort)] + (if s.reverse then "▲" else "▼")
      && h[1] == (if s.searchTerm != "" then "Command (/" + s.searchTerm + ")" else "Command")
      && forall c :: 0 <= c < 4 && c != 1 && c != Column(s.pSort) ==> h[c] == PlainHeaders[c]
  {
  }

  class Proc {
    var pSort: SortKey
    var reverse: bool
    var searchTerm: string
    var reIndex: bool
    /** the last accepted list; the sort reorders it in place when no search is active */
    var allData: seq<Process>
    var interval: Option<nat>
    /** the poll period in milliseconds */
    const period: nat

    function State(): TableState
      reads this
    {
      TableState(pSort, reverse, searchTerm, reIndex)
    }

    /** The poll timer (every 3000 ms) starts with the monitor. */
    constructor (timer: nat)
      ensures State() == Initial && allData == [] && interval == Some(timer) && period == 3000
    {
      pSort := Cpu;
      reIndex := false;
      reverse := false;
      searchTerm := "";
      allData := [];
      interval := Some(timer);
      period := 3000;
    }

    /** One of the sort keys 'm', 'c', 'p' pressed; the immediate re-poll is the caller's next UpdateData. */
    method PressSortKey(ch: char)
      modifies this`pSort, this`reverse, this`reIndex
      ensures State() == OnSortKey(old(State()), ch)
    {
      if Pars(ch) == Some(pSort) {
        reverse := !reverse;
      } else {
        pSort := if Pars(ch).Some? then Pars(ch).value else pSort;
      }
      reIndex := true;
    }

    /** The search prompt's answer (an error flag, and the text or null). */
    method SearchEntered(err: bool, value: Option<string>)
      modifies this`searchTerm, this`reIndex
      ensures State() == OnSearch(old(State()), err, value)
    {
      if !err && value.Some? && value.value != "" {
        searchTerm := Lower(value.value);
        reIndex := true;
      }
    }

    /** Escape pressed. */
    method EscapePressed()
      modifies this`searchTerm, this`reIndex
      ensures State() == OnEscape(old(State()))
    {
      if searchTerm != "" {
        searchTerm := "";
        reIndex := true;
      }
    }

    /**
     * A provider answer: unless `data.list` is not an array, the list is
     * kept, the view handed to the table and redrawn, and a pending
     * re-index moves the selection to the first row (`selectFirst`).
     */
    method UpdateData(data: Value) returns (shown: Option<TableData>, selectFirst: bool)
      requires Accepted(data) ==> WellFormed(Member(data, "list").items)
      modifies this`allData, this`reIndex
      ensures !Accepted(data) ==>
        State() == old(State()) && allData == old(allData) && shown == None && !selectFirst
      ensures Accepted(data) ==>
        var list := Decode(Member(data, "list").items);
        && shown == Some(View(list, old(State())))
        && allData == (if searchTerm == "" then SortDesc(list, pSort) else list)
        && selectFirst == old(reIndex)
        && State() == old(State()).(reIndex := false)
    {
      if !Accepted(data) {
        return None, false;
      }
      var list := Decode(Member(data, "list").items);
      var par := pSort;
      allData := list;
      var filtered := list;
      if searchTerm != "" {
        filtered := Matching(list, searchTerm);
      }
      var sorted := SortDesc(filtered, par);
      if searchTerm == "" {
        allData := sorted;
      }
      var rows := Rows(sorted);
      var headers := PlainHeaders;
      if searchTerm != "" {
        headers := headers[1 := "Command (/" + searchTerm + ")"];
      }
      var c := Column(pSort);
      headers := headers[c := headers[c] + (if reverse then "▲" else "▼")];
      shown := Some(TableData(headers, if reverse then Reverse(rows) else rows));
      selectFirst := reIndex;
      if reIndex {
        reIndex := false;
      }
    }

    /** Stops the poll timer if it was started. */
    method Cleanup() returns (cleared: Option<nat>)
      ensures cleared == interval
    {
      cleared := None;
      if interval.Some? {
        cleared := interval;
      }
    }
  }
}

=== FILE: text.dfy ===
/**
 * The string operations the dashboard relies on: decimal rendering of
 * integers and its inverse (array indices are property keys in canonical
 * decimal form), Number.prototype.toFixed, ASCII lower-casing, substring
 * search, and splitting and joining on a separator.
 */
module Text {
  import opened Wrappers

  predicate IsDigit(c: char) {
    '0' <= c <= '9'
  }

  predicate AllDigits(s: string) {
    forall i :: 0 <= i < |s| ==> IsDigit(s[i])
  }

  function Digit(d: nat): (c: char)
    requires d < 10
  {
    ('0' as int + d) as char
  }

  function DigitValue(c: char): nat
    requires IsDigit(c)
  {
    c as int - '0' as int
  }

  /** `String(n)` for a non-negative integer: no sign, no leading zero. */
  function Decimal(n: nat): string
  {
    if n < 10 then [Digit(n)] else Decimal(n / 10) + [Digit(n % 10)]
  }

  /** The number a string of decimal digits denotes. */
  function DigitsValue(s: string): nat
    requires AllDigits(s)
  {
    if s == [] then 0 else DigitsValue(s[..|s| - 1]) * 10 + DigitValue(s[|s| - 1])
  }

  /** The integer a canonical decimal string denotes (non-empty, digits only, no leading zero). */
  function ParseDecimal(k: string): Option<nat>
  {
    if k != [] && AllDigits(k) && (|k| == 1 || k[0] != '0') then Some(DigitsValue(k)) else None
  }

  lemma {:induction false} DecimalIsCanonical(n: nat)
    ensures AllDigits(Decimal(n)) && |Decimal(n)| >= 1
    ensures |Decimal(n)| == 1 || Decimal(n)[0] != '0'
    ensures DigitsValue(Decimal(n)) == n
  {
    if n >= 10 {
      DecimalIsCanonical(n / 10);
      var d := Decimal(n);
      assert d[..|d| - 1] == Decimal(n / 10);
    }
  }

  /** Parsing undoes rendering ... */
  lemma ParseDecimalOfDecimal(n: nat)
    ensures ParseDecimal(Decimal(n)) == Some(n)
  {
    DecimalIsCanonical(n);
  }

  lemma {:induction false} DigitsValuePositive(s: string)
    requires AllDigits(s) && s != [] && s[0] != '0'
    ensures DigitsValue(s) >= 1
  {
    if |s| > 1 {
      DigitsValuePositive(s[..|s| - 1]);
    }
  }

  /** ... and rendering undoes parsing: the canonical form is unique. */
  lemma {:induction false} DecimalOfParseDecimal(k: string)
    requires ParseDecimal(k).Some?
    ensures Decimal(ParseDecimal(k).value) == k
    decreases |k|
  {
    var n := DigitsValue(k);
    var last := k[|k| - 1];
    assert Digit(DigitValue(last)) == last;
    if |k| == 1 {
      assert k[..0] == [];
      assert DigitsValue(k) == DigitsValue(k[..0]) * 10 + DigitValue(last);
      assert n == DigitValue(last) && n < 10;
      assert k == [last];
    } else {
      var init := k[..|k| - 1];
      assert ParseDecimal(init) == Some(DigitsValue(init));
      DecimalOfParseDecimal(init);
      DigitsValuePositive(init);
      assert n / 10 == DigitsValue(init) && n % 10 == DigitValue(last);
      assert k == init + [last];
    }
  }

  function Pow10(f: nat): (p: nat)
    ensures p >= 1
  {
    if f == 0 then 1 else 10 * Pow10(f - 1)
  }

  function Repeat(c: char, n: nat): (r: string)
    ensures |r| == n && forall i :: 0 <= i < n ==> r[i] == c
  {
    if n == 0 then [] else [c] + Repeat(c, n - 1)
  }

  /**
   * Number.prototype.toFixed(f) on the exact value x: the integer n nearest
   * to x * 10^f (the larger one on a tie), written with f digits after the
   * point, a leading "-" for a negative x.
   */
  function ToFixed(x: real, f: nat): string
  {
    if x < 0.0 then "-" + FixedMagnitude(-x, f) else FixedMagnitude(x, f)
  }

  function RoundedScaled(x: real, f: nat): nat
    requires x >= 0.0
  {
    (x * Pow10(f) as real + 0.5).Floor
  }

  function FixedMagnitude(x: real, f: nat): string
    requires x >= 0.0
  {
    FixedText(RoundedScaled(x, f), f)
  }

  /** The integer n / 10^f written with f digits after the point. */
  function FixedText(n: nat, f: nat): string
  {
    if f == 0 then Decimal(n) else PointAt(Decimal(n), f)
  }

  /** Digits `m` zero-padded to at least f + 1 digits, with a point before the last f. */
  function PointAt(m: string, f: nat): string
    requires f > 0
  {
    var padded := if |m| <= f then Repeat('0', f + 1 - |m|) + m else m;
    padded[..|padded| - f] + "." + padded[|padded| - f..]
  }

  /** Zero-padding digits on the left gives digits, at least f + 1 of them. */
  lemma PaddedDigits(m: string, f: nat)
    requires AllDigits(m) && |m| >= 1
    ensures var padded := if |m| <= f then Repeat('0', f + 1 - |m|) + m else m;
      AllDigits(padded) && |padded| >= f + 1
  {
  }

  /** Putting a point before the last f digits of a digit string. */
  lemma PointBeforeLast(padded: string, f: nat)
    requires f > 0 && |padded| >= f + 1 && AllDigits(padded)
    ensures var r := padded[..|padded| - f] + "." + padded[|padded| - f..];
      |r| >= f + 2 && r[|r| - f - 1] == '.' &&
      AllDigits(r[..|r| - f - 1]) && AllDigits(r[|r| - f..])
  {
    var r := padded[..|padded| - f] + "." + padded[|padded| - f..];
    assert r[..|r| - f - 1] == padded[..|padded| - f];
    assert r[|r| - f..] == padded[|padded| - f..];
  }

  lemma PointAtShape(m: string, f: nat)
    requires f > 0 && AllDigits(m) && |m| >= 1
    ensures var r := PointAt(m, f);
      |r| >= f + 2 && r[|r| - f - 1] == '.' &&
      AllDigits(r[..|r| - f - 1]) && AllDigits(r[|r| - f..])
  {
    PaddedDigits(m, f);
    PointBeforeLast(if |m| <= f then Repeat('0', f + 1 - |m|) + m else m, f);
  }

  /** For x >= 0, toFixed(f) with f > 0 is digits, a point, then exactly f digits. */
  lemma FixedShape(x: real, f: nat)
    requires x >= 0.0 && f > 0
    ensures var r := ToFixed(x, f);
      |r| >= f + 2 && r[|r| - f - 1] == '.' &&
      AllDigits(r[..|r| - f - 1]) && AllDigits(r[|r| - f..])
  {
    var n := RoundedScaled(x, f);
    assert ToFixed(x, f) == FixedText(n, f);
    FixedTextShape(n, f);
  }

  lemma FixedTextShape(n: nat, f: nat)
    requires f > 0
    ensures var r := FixedText(n, f);
      |r| >= f + 2 && r[|r| - f - 1] == '.' &&
      AllDigits(r[..|r| - f - 1]) && AllDigits(r[|r| - f..])
  {
    DecimalIsCanonical(n);
    PointAtShape(Decimal(n), f);
  }

  function LowerChar(c: char): char {
    if 'A' <= c <= 'Z' then (c as int + 32) as char else c
  }

  /** String.prototype.toLowerCase on the ASCII letters. */
  function Lower(s: string): (r: string)
    ensures |r| == |s|
  {
    seq(|s|, i requires 0 <= i < |s| => LowerChar(s[i]))
  }

  /** String.prototype.includes: t occurs in s at some position. */
  predicate Contains(s: string, t: string) {
    t <= s || (s != [] && Contains(s[1..], t))
  }

  /** Array.prototype.join(sep) over strings. */
  function Join(parts: seq<string>, sep: string): string {
    if parts == [] then ""
    else if |parts| == 1 then parts[0]
    else parts[0] + sep + Join(parts[1..], sep)
  }

  /** String.prototype.split on a one-character separator. */
  function Split(s: string, sep: char): (parts: seq<string>)
    ensures |parts| >= 1
  {
    if s == [] then [""]
    else if s[0] == sep then [""] + Split(s[1..], sep)
    else var rest := Split(s[1..], sep); [[s[0]] + rest[0]] + rest[1..]
  }

  lemma {:induction false} JoinOfSplit(s: string, sep: char)
    ensures Join(Split(s, sep), [sep]) == s
  {
    if s != [] {
      JoinOfSplit(s[1..], sep);
      var rest := Split(s[1..], sep);
      if s[0] == sep {
        assert Split(s, sep) == [""] + rest;
        assert s == [sep] + s[1..];
      } else {
        var parts := Split(s, sep);
        assert parts[0] == [s[0]] + rest[0];
        assert parts[1..] == rest[1..];
        if |rest| > 1 {
          assert Join(rest, [sep]) == rest[0] + [sep] + Join(rest[1..], [sep]);
        }
        assert s == [s[0]] + s[1..];
      }
    }
  }

  lemma {:induction false} SplitPiecesFree(s: string, sep: char)
    ensures forall p :: p in Split(s, sep) ==> sep !in p
  {
    if s != [] {
      SplitPiecesFree(s[1..], sep);
      var rest := Split(s[1..], sep);
      if s[0] != sep {
        var parts := Split(s, sep);
        assert parts == [[s[0]] + rest[0]] + rest[1..];
        assert rest[0] in rest;
        forall p | p in parts
          ensures sep !in p
        {
          if p != parts[0] {
            assert p in rest[1..];
            assert p in rest;
          }
        }
      }
    }
  }

  /** Splitting yields pieces without the separator that join back to the input. */
  lemma JoinSplit(s: string, sep: char)
    ensures Join(Split(s, sep), [sep]) == s
    ensures forall p :: p in Split(s, sep) ==> sep !in p
  {
    JoinOfSplit(s, sep);
    SplitPiecesFree(s, sep);
  }

  /** Pieces that hold no separator come back unchanged from joining and splitting. */
  lemma {:induction false} SplitJoin(parts: seq<string>, sep: char)
    requires parts != []
    requires forall p :: p in parts ==> sep !in p
    ensures Split(Join(parts, [sep]), sep) == parts
    decreases |parts|, |parts[0]|
  {
    var p := parts[0];
    if p == [] {
      if |parts| > 1 {
        SplitJoin(parts[1..], sep);
        assert Join(parts, [sep]) == [sep] + Join(parts[1..], [sep]);
        assert parts == [""] + parts[1..];
      }
    } else {
      var parts' := [p[1..]] + parts[1..];
      assert forall q :: q in parts' ==> sep !in q by {
        assert forall c :: c in p[1..] ==> c in p;
      }
      SplitJoin(parts', sep);
      assert p[0] in p;
      JoinFirstChar(parts, sep);
      var j := Join(parts, [sep]);
      assert j[0] == p[0] && j[1..] == Join(parts', [sep]);
      assert p == [p[0]] + p[1..];
    }
  }

  /** Joining starts with the first character of the first piece. */
  lemma JoinFirstChar(parts: seq<string>, sep: char)
    requires parts != [] && parts[0] != []
    ensures Join(parts, [sep]) == [parts[0][0]] + Join([parts[0][1..]] + parts[1..], [sep])
  {
    var p := parts[0];
    var parts' := [p[1..]] + parts[1..];
    assert parts'[1..] == parts[1..];
    assert p == [p[0]] + p[1..];
  }
}

=== FILE: throttle.dfy ===
/**
 * A rate limiter around a callback: a call invokes the callback at once when
 * at least `delay` has passed since the last invocation, otherwise it leaves
 * one deferred invocation pending (later calls only replace the arguments it
 * will use), and `Cancel` drops the pending one and forgets the last
 * invocation. The clock reading of each event is an explicit argument; the
 * deferred invocation is the event `Fire`.
 */
module Throttle {
  import opened Wrappers

  /** Consecutive invocation times lie at least `delay` apart. */
  ghost predicate Spaced(times: seq<int>, delay: int)
  {
    forall i :: 0 <= i < |times| - 1 ==> times[i + 1] - times[i] >= delay
  }

  /** `A` stands for the receiver and argument list the callback is applied to. */
  class Throttled<A> {
    const delay: int
    var lastCall: int
    /** `timeout` is set: a deferred invocation is pending */
    var pending: bool
    var lastArgs: Option<A>

    /** invocation times since creation or the last `Cancel` */
    ghost var history: seq<int>
    /** no deferred invocation has fired before its due time since then */
    ghost var onTime: bool

    ghost predicate Valid()
      reads this
    {
      && (pending ==> lastArgs.Some?)
      && (history == [] ==> lastCall == 0)
      && (history != [] ==> lastCall == history[|history| - 1])
      && (onTime ==> Spaced(history, delay))
    }

    /** The time a pending deferred invocation is scheduled for. */
    function Due(): int
      reads this
    {
      lastCall + delay
    }

    constructor (delay: int)
      ensures Valid() && this.delay == delay
      ensures lastCall == 0 && !pending && lastArgs == None
      ensures history == [] && onTime
    {
      this.delay := delay;
      lastCall := 0;
      pending := false;
      lastArgs := None;
      history := [];
      onTime := true;
    }

    /**
     * The throttled function called at time `now` with `args`; returns the
     * arguments the callback was applied to, if it was invoked now.
     */
    method Call(now: int, args: A) returns (invoked: Option<A>)
      requires Valid()
      modifies this
      ensures Valid() && lastArgs == Some(args) && onTime == old(onTime)
      ensures delay - (now - old(lastCall)) <= 0 ==>
        invoked == Some(args) && lastCall == now && !pending && history == old(history) + [now]
      ensures delay - (now - old(lastCall)) > 0 ==>
        invoked == None && lastCall == old(lastCall) && pending && history == old(history)
    {
      lastArgs := Some(args);
      var remaining := delay - (now - lastCall);
      if remaining <= 0 {
        pending := false;
        lastCall := now;
        history := history + [now];
        invoked := Some(args);
      } else {
        if !pending {
          pending := true;
        }
        invoked := None;
      }
    }

    /** The deferred invocation runs at time `now` with the latest arguments. */
    method Fire(now: int) returns (invoked: A)
      requires Valid() && pending
      modifies this
      ensures Valid()
      ensures invoked == old(lastArgs).value && lastArgs == old(lastArgs)
      ensures lastCall == now && !pending && history == old(history) + [now]
      ensures onTime == (old(onTime) && now >= old(Due()))
    {
      onTime := onTime && now >= lastCall + delay;
      lastCall := now;
      pending := false;
      history := history + [now];
      invoked := lastArgs.value;
    }

    /** Drops the pending invocation and forgets the last one. */
    method Cancel()
      requires Valid()
      modifies this
      ensures Valid()
      ensures lastCall == 0 && !pending && lastArgs == None
      ensures history == [] && onTime
    {
      if pending {
        pending := false;
      }
      lastCall := 0;
      lastArgs := None;
      history := [];
      onTime := true;
    }
  }

  /** The observable state of a throttle: the last invocation time, whether a call is deferred, the latest arguments. */
  datatype Snapshot<A> = Snapshot(lastCall: int, pending: bool, lastArgs: Option<A>)

  function State<A>(t: Throttled<A>): Snapshot<A>
    reads t
  {
    Snapshot(t.lastCall, t.pending, t.lastArgs)
  }

  /** Right after `Cancel`, a call at a time at or past `delay` invokes at once. */
  method FreshCallFires<A>(t: Throttled<A>, now: int, args: A) returns (invoked: Option<A>)
    requires t.Valid() && now >= t.delay
    modifies t
    ensures invoked == Some(args) && t.lastCall == now && !t.pending
  {
    t.Cancel();
    invoked := t.Call(now, args);
  }

  /** `cancel` is idempotent: a second one leaves the state the first one left, the reset state. */
  method CancelTwice<A>(t: Throttled<A>) returns (once: Snapshot<A>, twice: Snapshot<A>)
    requires t.Valid()
    modifies t
    ensures once == twice == Snapshot(0, false, None)
  {
    t.Cancel();
    once := State(t);
    t.Cancel();
    twice := State(t);
  }
}

=== FILE: utils.dfy ===
/**
 * Formatting helpers shared by the monitors: the byte-size formatter and the
 * chart colour palette.
 */
module Utils {
  import opened Js
  import opened Text

  /** The chart palette; series take colours round-robin. */
  const Colors: seq<string> := ["magenta", "cyan", "blue", "yellow", "green", "red"]

  /** The unit letters indexed by the exponent; index 5 ('P') is never chosen. */
  const UnitChars: string := " KMGTP"

  /** The palette holds exactly these six colours. */
  lemma PaletteIsSixColours()
    ensures |Colors| == 6
    ensures Colors[0] == "magenta" && Colors[1] == "cyan" && Colors[2] == "blue"
    ensures Colors[3] == "yellow" && Colors[4] == "green" && Colors[5] == "red"
  {
  }

  function Pow(base: real, k: nat): (p: real)
    requires base >= 1.0
    ensures p >= 1.0
  {
    if k == 0 then 1.0 else base * Pow(base, k - 1)
  }

  lemma {:induction false} PowGrows(base: real, j: nat, k: nat)
    requires base >= 1.0 && j <= k
    ensures 1.0 <= Pow(base, j) <= Pow(base, k)
    decreases k
  {
    if k > j {
      PowGrows(base, j, k - 1);
    } else if j > 0 {
      PowGrows(base, j - 1, j - 1);
    }
  }

  function Base(isDecimal: bool): real
  {
    if isDecimal then 1000.0 else 1024.0
  }

  function ExponentFrom(x: real, base: real, k: nat): (e: nat)
    requires base >= 1.0
    requires k <= 4 && (k == 0 || Pow(base, k) <= x)
    ensures k <= e <= 4
    ensures e == 0 || Pow(base, e) <= x
    ensures e < 4 ==> x < Pow(base, e + 1)
    decreases 4 - k
  {
    if k < 4 && Pow(base, k + 1) <= x then ExponentFrom(x, base, k + 1) else k
  }

  /** floor(log_base(x)), clamped to 0..4 */
  function Exponent(x: real, base: real): (e: nat)
    requires base >= 1.0
    ensures e <= 4
  {
    ExponentFrom(x, base, 0)
  }

  /** The exponent is the largest k <= 4 with base^k <= x (0 when x < base). */
  lemma ExponentIsLargest(x: real, base: real)
    requires base >= 1.0
    ensures var e := Exponent(x, base);
      (e == 0 || Pow(base, e) <= x) &&
      forall j :: e < j <= 4 ==> x < Pow(base, j)
  {
    var e := Exponent(x, base);
    forall j | e < j <= 4
      ensures x < Pow(base, j)
    {
      PowGrows(base, e + 1, j);
    }
  }

  /** The validation gate: anything but a positive number formats as "0.00 B". */
  predicate Rejected(bytes: Value)
  {
    !Truthy(bytes) || (bytes.Num? && bytes.n == 0.0) || !bytes.Num? || bytes.n < 0.0
  }

  /** The text for bytes in decimal (1000) or binary (1024) units. */
  function HumanFileSize(bytes: Value, isDecimal: bool): string
  {
    if Rejected(bytes) then "0.00 B" else Scaled(bytes.n, isDecimal)
  }

  /** A positive byte count divided by base^e, to two decimals, and its unit. */
  function Scaled(n: real, isDecimal: bool): string
  {
    var e := Exponent(n, Base(isDecimal));
    ToFixed(n / Pow(Base(isDecimal), e), 2) + Unit(e, isDecimal)
  }

  function Unit(e: nat, isDecimal: bool): string
    requires e < |UnitChars|
  {
    " " + [UnitChars[e]] + (if isDecimal || e == 0 then "" else "i") + "B"
  }

  lemma UnitShape(e: nat, isDecimal: bool)
    requires e <= 4
    ensures var u := Unit(e, isDecimal);
      |u| >= 3 && u[1] in " KMGT" && (u[|u| - 2] == 'i' <==> !isDecimal && e != 0)
  {
  }

  lemma ScaledShape(n: real, isDecimal: bool)
    requires n > 0.0
    ensures var e := Exponent(n, Base(isDecimal));
      var fixed := ToFixed(n / Pow(Base(isDecimal), e), 2);
      Scaled(n, isDecimal) == fixed + Unit(e, isDecimal) && |fixed| >= 4
  {
    var e := Exponent(n, Base(isDecimal));
    var q := n / Pow(Base(isDecimal), e);
    assert q >= 0.0;
    FixedShape(q, 2);
  }

  /**
   * A positive number renders as the fixed-2 value, a space, one of the
   * unit letters ' KMGT' (never 'P'), "i" exactly in binary mode above
   * bytes, and "B"; anything else renders as exactly "0.00 B".
   */
  lemma HumanFileSizeShape(bytes: Value, isDecimal: bool)
    ensures var r := HumanFileSize(bytes, isDecimal);
      (r == "0.00 B" <==> Rejected(bytes)) &&
      (!Rejected(bytes) ==>
        var e := Exponent(bytes.n, Base(isDecimal));
        var infix := if !isDecimal && e != 0 then "i" else "";
        UnitChars[e] in " KMGT" &&
        r == ToFixed(bytes.n / Pow(Base(isDecimal), e), 2) + " " + [UnitChars[e]] + infix + "B")
  {
    if !Rejected(bytes) {
      ScaledShape(bytes.n, isDecimal);
      UnitShape(Exponent(bytes.n, Base(isDecimal)), isDecimal);
    }
  }

  /** The infix "i" appears exactly in binary mode with a unit above bytes. */
  lemma BinaryInfix(bytes: Value, isDecimal: bool)
    requires !Rejected(bytes)
    ensures var r := HumanFileSize(bytes, isDecimal);
      var e := Exponent(bytes.n, Base(isDecimal));
      |r| >= 3 && (r[|r| - 2] == 'i' <==> !isDecimal && e != 0)
  {
    ScaledShape(bytes.n, isDecimal);
    var e := Exponent(bytes.n, Base(isDecimal));
    UnitShape(e, isDecimal);
    var u := Unit(e, isDecimal);
    var r := HumanFileSize(bytes, isDecimal);
    assert r[|r| - 2] == u[|u| - 2];
  }

  /** The examples of the unit tests; values here are exact, so no rounding of the logarithm. */
  lemma RejectedExamples()
    ensures HumanFileSize(Num(0.0), false) == "0.00 B"
    ensures HumanFileSize(Num(0.0), true) == "0.00 B"
    ensures HumanFileSize(Num(-100.0), false) == "0.00 B"
    ensures HumanFileSize(Null, false) == "0.00 B"
    ensures HumanFileSize(Undefined, false) == "0.00 B"
    ensures HumanFileSize(Str("string"), false) == "0.00 B"
    ensures HumanFileSize(Obj(map[]), false) == "0.00 B"
  {
  }

  lemma ScaledExample(n: real, isDecimal: bool, e: nat, q: real, fixed: string)
    requires n > 0.0 && Exponent(n, Base(isDecimal)) == e
    requires n / Pow(Base(isDecimal), e) == q && ToFixed(q, 2) == fixed
    ensures HumanFileSize(Num(n), isDecimal) == fixed + Unit(e, isDecimal)
  {
    ScaledShape(n, isDecimal);
  }

  lemma FixedExample(x: real, n: nat, text: string)
    requires x >= 0.0 && RoundedScaled(x, 2) == n && Decimal(n) == text && |text| > 2
    ensures ToFixed(x, 2) == text[..|text| - 2] + "." + text[|text| - 2..]
  {
  }

  lemma BytesExample()
    ensures HumanFileSize(Num(512.0), false) == "512.00  B"
  {
    assert Exponent(512.0, 1024.0) == 0;
    assert RoundedScaled(512.0, 2) == 51200;
    assert Decimal(51200) == "51200";
    FixedExample(512.0, 51200, "51200");
    ScaledExample(512.0, false, 0, 512.0, "512.00");
  }

  lemma KibibyteExample()
    ensures HumanFileSize(Num(1024.0), false) == "1.00 KiB"
  {
    assert Exponent(1024.0, 1024.0) == 1;
    assert RoundedScaled(1.0, 2) == 100;
    assert Decimal(100) == "100";
    FixedExample(1.0, 100, "100");
    ScaledExample(1024.0, false, 1, 1.0, "1.00");
  }

  lemma KilobyteExample()
    ensures HumanFileSize(Num(1000.0), true) == "1.00 KB"
  {
    assert Exponent(1000.0, 1000.0) == 1;
    assert RoundedScaled(1.0, 2) == 100;
    assert Decimal(100) == "100";
    FixedExample(1.0, 100, "100");
    ScaledExample(1000.0, true, 1, 1.0, "1.00");
  }

  /** 1024^5 bytes is past the last unit used, so it reports as 1024 TiB. */
  lemma ClampedExample()
    ensures HumanFileSize(Num(1125899906842624.0), false) == "1024.00 TiB"
  {
    assert Pow(1024.0, 4) == 1099511627776.0;
    assert Exponent(1125899906842624.0, 1024.0) == 4;
    assert RoundedScaled(1024.0, 2) == 102400;
    assert Decimal(102400) == "102400";
    FixedExample(1024.0, 102400, "102400");
    ScaledExample(1125899906842624.0, false, 4, 1024.0, "1024.00");
  }
}

=== FILE: wrappers.dfy ===
/** Option and Result, for values that may be absent and operations that may fail. */
module Wrappers {

  datatype Option<+T> = None | Some(value: T)

  datatype Result<+T, +E> = Ok(value: T) | Err(error: E)
}
